=== FILE: README.md ===
# Image Shapes Filter: a Dafny model

Image_Shapes_Filter approximates a target image by painting shapes on a canvas,
one shape per round. The canvas starts as a solid image in the target's
average colour. Each round does four things:

1. It builds a shape selector.
2. It draws `num_shapes` random ellipses and rectangles.
3. It runs `num_iterations` iterations. Each iteration ranks the shapes by the
   difference score the canvas would have with the shape drawn on it, keeps the
   best `num_top_shapes` and evolves new shapes from them.
4. It commits element 0 of the last population to the canvas.

The filter stops after `max_rounds` rounds, or once the canvas's similarity
falls below `similarity_threshold`.

This project models that core in Dafny, one module per source file:

| file | module | models |
|---|---|---|
| `outcomes.dfy` | `Outcomes` | `Result`/`Option` and the Python exceptions the core raises |
| `geometry.dfy` | `Geometry` | points and RGB colour tuples |
| `decimal.dfy` | `Decimal` | `str(int)` and a reader for exactly that text (used by the shape text form) |
| `color_utils.dfy` | `ColorUtils` | `program/color_utils.py`: difference image, difference score, maximum score |
| `shape_generator.dfy` | `ShapeGenerator` | `program/shape_generator.py`: the random shape selector, drawing dispatch, text form |
| `tuple_order.dfy` | `TupleOrder` | Python's `<` on `(score, shape)` tuples and the sort `_rank_shapes` applies |
| `shapes_filter.dfy` | `ShapesFilter` | `program/shapes_filter.py`: the `approximation_filter` class |
| `regular_polygon.dfy` | `RegularPolygons` | `program/shapes/regular_polygon.py` |
| `square.dfy` | `Squares` | `program/shapes/square.py` |

Modelling choices:

- Images are values: a width, a height and a row-major pixel sequence.
  `canvas.copy()` followed by drawing is a pure `paint(canvas, call)` parameter.
  The model only assumes that drawing keeps the image size (`PaintKeepsSize`).
- Random draws are parameters. For `random_shape` they are the anchor point, the
  two direction coin flips, the second point and the shape choice. Each draw is
  required to lie in the range `randrange` was given, whenever that range is
  not empty. An empty range is the `ValueError` path.
- The rasteriser's answers are oracle functions of a `Raster` record: whether an
  ellipse mask is empty, and the average target colour under a mask.
- `approximation_filter` is a class. Its six settings are `const` fields, since
  `__init__` sets them and nothing changes them afterwards. The loops of
  `_rank_shapes`, `_run_iteration`, `_run_round` and `run_filter_with_viewer`
  are methods with loops. Each is proved equal to a specification function
  (`Ranking`, `Iteration`, `Population`/`Round` and `FilterFrom`), and the
  lemmas state what the source promises about those functions.
- The random shape selector never changes its fields after `__init__`, so it is
  a datatype `Selector` built by `NewSelector`, a function that returns a `Result`.

What the code does, where its documentation says otherwise (the model follows
the code):

- The default `similarity_threshold` is 0.1 in the signature. The docstring
  says 0.9.
- `__init__` checks none of its documented requirements.
- `random_shape_selector.__init__` stores the box as `[x0, y0, x1, y1]` whichever form it was given.
- `_rank_shapes` sorts `(score, shape)` tuples. Equal scores are therefore
  ordered by the shape tuples themselves: name, then corners, then colour. A
  stable sort would keep their input order instead. `TupleOrder` models
  Python's tuple order.
- `_run_round` catches an error from `_run_iteration` and keeps the population
  it had. It catches nothing from `_rank_shapes`.
- `random_shape_selector` inherits `evolve_shape(self, shape)` from the base
  class, which raises. The filter calls it with two arguments, so every call
  raises `TypeError` and every iteration with `num_shapes > 0` fails. As a result a round returns the
  first random shape it drew, unranked (`RoundReturnsFirstRandomShape`).

## Model

| member | source | states |
|---|---|---|
| Decimal.ParseIntToStr | program/shape_generator.py:229-236 | reading back the decimal text `str` writes for any int yields that int, and leaves the rest of the text untouched when it does not start with a digit |
| Decimal.IntToStr | program/shape_generator.py:229 | `str` of an int is non-empty, made of digits and a leading minus sign, which is there exactly for negative values |
| ColorUtils.Solid | program/shapes_filter.py:100 | the new canvas is width x height (width * height pixels), all of the given colour |
| ColorUtils.DifferencePixels | program/color_utils.py:21 | pixel i of the difference is the channel-wise absolute difference of pixel i of each image |
| ColorUtils.Crop | program/color_utils.py:21 | the crop to w x h holds, at every (x, y) inside it, the pixel the image has at (x, y) |
| ColorUtils.DifferenceImage | program/color_utils.py:7-21 | for RGB images of any sizes, the difference image covers the top-left region both cover (the smaller width and height), and each of its pixels is the channel-wise absolute difference of the two pixels at that position; for images of one size it has that size and pixel i is the difference of pixel i of each |
| ColorUtils.Tally | program/color_utils.py:34 | adding a pixel raises exactly one bin per band (the bin of its value in that band) by one, and raises the weighted sum by the pixel's channel total |
| ColorUtils.Histogram | program/color_utils.py:34 | the histogram has 768 bins, and bin 256 * band + v counts the pixels whose value in that band is v |
| ColorUtils.HistogramWeight | program/color_utils.py:35 | the sum of bin count times (bin index mod 256) over the 768 bins equals the sum of all channel values |
| ColorUtils.DifferenceTotal | program/color_utils.py:34-35 | the channel total of the difference image is the sum of absolute channel differences |
| ColorUtils.DifferenceScore | program/color_utils.py:24-35 | the histogram-weighted score equals the independent reference: the sum over all pixels and channels of the absolute difference |
| ColorUtils.ScoreZeroIff | program/color_utils.py:29-30 | the score is 0 exactly when the two images have the same pixels (both directions) |
| ColorUtils.ScoreOfSelfIsZero | tests/test_color_utils.py:8-11 | an image scores 0 against itself |
| ColorUtils.DifferenceImageSymmetric | program/color_utils.py:7-21 | the difference image does not depend on the order of the images, whatever their sizes |
| ColorUtils.ScoreSymmetric | program/color_utils.py:24-35 | the score does not depend on the order of the images |
| ColorUtils.ScoreOfSolidImages | program/color_utils.py:24-35 | two solid w x h images score their channel distance times w times h |
| ColorUtils.ScoreOfRedShades | tests/test_color_utils.py:14-18 | red 255 against red 250 on 100 x 100 pixels scores 5 * 100 * 100 |
| ColorUtils.ScoreAtMostMax | program/color_utils.py:32-44 | no two images of the same size score more than `color_difference_max_score` |
| ColorUtils.MaxScore | program/color_utils.py:38-44 | the maximum, 765 * w * h, is exactly the score of a black against a white image of that size |
| ShapeGenerator.UnpackBBox | program/shape_generator.py:91-103 | an empty list raises IndexError; two 2-element points, or four ints, give the box `[x0, y0, x1, y1]` in that order; any other shape of list raises the format ValueError |
| ShapeGenerator.NewSelector | program/shape_generator.py:73-116 | the selector exists exactly when the box unpacks and passes every check, and holds that box and both sizes. The failed checks raise, in the source's order: inverted box, min_size not below max_size, min_size not positive, min_size not containable in the box |
| ShapeGenerator.BBoxFormsAgree | program/shape_generator.py:76-113 | the two-point and the four-int box forms give the same selector. It exists exactly when x0 < x1, y0 < y1 and 0 < min_size < max_size with min_size smaller than both box sides, and it then stores Box(x0, y0, x1, y1) with both sizes |
| ShapeGenerator.AnchorRange | program/shape_generator.py:134-136 | a coordinate is in the anchor range exactly when it lies at least min_size inside both the bounding box and the image |
| ShapeGenerator.SecondRange | program/shape_generator.py:138-153 | a coordinate is in the second range exactly when it lies in the box on the chosen side of the anchor, with its distance to the anchor between min_size and max_size (min_size excluded backwards, max_size excluded forwards) |
| ShapeGenerator.ForwardRangeNonEmpty | program/shape_generator.py:135-153 | the forward range for the second point is never empty once the anchor is drawn |
| ShapeGenerator.BackwardRangeEmptyIff | program/shape_generator.py:135-151 | the backward range is empty exactly when the anchor sits min_size from the box's low edge, so never when that edge is negative |
| ShapeGenerator.ShapeName | program/shape_generator.py:160-174 | the name is "ellipse" exactly when an ellipse was chosen and its mask is not empty; otherwise it is "rectangle" |
| ShapeGenerator.RandomShape | program/shape_generator.py:118-185 | ValueError exactly when a randrange range is empty. Otherwise the box is the two drawn points normalised to top-left and bottom-right corners, inside the bounding box, each side is between min_size and max_size, the anchor is a corner inside the image, and the colour is the average under the named shape |
| ShapeGenerator.RandomShapes | program/shape_generator.py:187-191 | n shapes (none for n <= 0), shape i being random_shape's result on draw i; it fails, with the same ValueError, exactly when one call does |
| ShapeGenerator.DrawShape | program/shape_generator.py:193-209 | ellipse and rectangle give the matching draw call with the tuple's box and colour; any other name raises ValueError |
| ShapeGenerator.RandomShapesAreDrawable | program/shape_generator.py:160-209 | every shape random_shape returns can be drawn |
| ShapeGenerator.RandomShapesAllDrawable | program/shape_generator.py:187-209 | every shape random_shapes returns can be drawn and lies inside the selector's bounding box |
| ShapeGenerator.EvolveShape | program/shape_generator.py:30-34 | the inherited evolve_shape, called with the filter's two arguments, raises TypeError on every call |
| ShapeGenerator.CornersToStr | program/shape_generator.py:229-236 | the text of an xy list has no ':' and reads back (the parse shape_str_to_tuple applies to field 1) as the same corners |
| ShapeGenerator.ColorToStr | program/shape_generator.py:229-236 | the text of a colour tuple has no ':' and reads back (the parse applied to field 2) as the same colour |
| ShapeGenerator.ShapeTupleToStr | program/shape_generator.py:223-236 | for a name without ':', the written text splits into exactly the three written fields, and shape_str_to_tuple reads it back as the same shape |
| ShapeGenerator.IndexOf | program/shape_generator.py:234 | the index found holds the separator, and no earlier position does |
| ShapeGenerator.Split | program/shape_generator.py:234 | split yields at least one field, and no field contains the separator |
| ShapeGenerator.SplitJoin | program/shape_generator.py:234 | joining split's fields with the separator gives the text back |
| ShapeGenerator.ShapeStrToTuple | program/shape_generator.py:231-236 | text that does not split into exactly three fields raises ValueError; a parsed shape's name is the first field and has no ':' |
| ShapeGenerator.SplitCons | program/shape_generator.py:234 | splitting a ':'-free field followed by ':' gives that field, then the split of the rest |
| ShapeGenerator.RandomShapeTextRoundTrip | program/shape_generator.py:118-236 | every random shape survives the text round trip (its name is ellipse or rectangle) |
| TupleOrder.LexLessIrreflexive | program/shapes_filter.py:202 | lexicographic `<` on int sequences is irreflexive |
| TupleOrder.LexLessTransitive | program/shapes_filter.py:202 | lexicographic `<` is transitive |
| TupleOrder.LexLessTotal | program/shapes_filter.py:202 | lexicographic `<` is total on distinct sequences |
| TupleOrder.PairLessIrreflexive | program/shapes_filter.py:201-202 | `<` on (score, shape) tuples is irreflexive |
| TupleOrder.ShapeLessTransitive | program/shapes_filter.py:202 | `<` on shape tuples (name, then corners, then colour) is transitive |
| TupleOrder.PairLessTransitive | program/shapes_filter.py:201-202 | `<` on (score, shape) tuples is transitive |
| TupleOrder.PairLeTransitive | program/shapes_filter.py:201-202 | `<=` on (score, shape) tuples is transitive |
| TupleOrder.ShapeLessTotal | program/shapes_filter.py:202 | any two distinct shape tuples are ordered one way or the other |
| TupleOrder.PairLessTotal | program/shapes_filter.py:201-202 | any two distinct (score, shape) tuples are ordered one way or the other |
| TupleOrder.PairLeAntisymmetric | program/shapes_filter.py:201-202 | `<=` on (score, shape) tuples is antisymmetric |
| TupleOrder.Insert | program/shapes_filter.py:202 | inserting adds exactly the one entry (as a multiset) |
| TupleOrder.Sort | program/shapes_filter.py:202 | the sorted list is a permutation of the input |
| TupleOrder.InsertSorted | program/shapes_filter.py:202 | inserting into a sorted list keeps it sorted |
| TupleOrder.SortSorted | program/shapes_filter.py:202 | the sort's result is in ascending tuple order |
| TupleOrder.SortedUnique | program/shapes_filter.py:202 | two sorted lists with the same entries are equal |
| TupleOrder.SortIsTheSortedPermutation | program/shapes_filter.py:202 | any sorted permutation of the list, Python's `list.sort` result included, is the modelled sort's result |
| TupleOrder.SortSource | program/shapes_filter.py:202 | every entry of the sorted list is an entry of the input |
| TupleOrder.Shapes | program/shapes_filter.py:205 | entry i of the extracted list is the shape of pair i |
| TupleOrder.ShapesOfConcat | program/shapes_filter.py:205 | extracting the shapes distributes over concatenation |
| TupleOrder.ShapesOfPermutation | program/shapes_filter.py:205 | permuted pairs have permuted shapes |
| TupleOrder.ShapesOfSort | program/shapes_filter.py:202-205 | the shapes of the sorted pairs are a permutation of the shapes of the pairs |
| ShapesFilter.DrawWith | program/shapes_filter.py:200 | the configured class's draw_shape: the random shape selector's dispatch, or NotImplementedError from the base class |
| ShapesFilter.InitShapeSelector | program/shapes_filter.py:129-144 | a selector exactly for the random shape selector class on images wider and higher than 25, with box (-100, -100, w + 100, h + 100), min_size 25 and max_size min(1000, w, h); RuntimeError for the base class, and the constructor's ValueError otherwise |
| ShapesFilter.FilterSelectorShapes | program/shapes_filter.py:140-141 | with the filter's selector, random_shape succeeds exactly on images wider and higher than 50 pixels |
| ShapesFilter.Replay | program/shapes_filter.py:112-113 | drawing the committed shapes in order keeps the canvas size |
| ShapesFilter.ApproximationFilter.constructor | program/shapes_filter.py:57-81 | every setting is stored as given, unchecked |
| ShapesFilter.ApproximationFilter.WithDefaults | program/shapes_filter.py:57-60 | the defaults are 200 shapes, 500 rounds, threshold 0.1, 10 iterations, 20 top shapes |
| ShapesFilter.ApproximationFilter.ScoreOf | program/shapes_filter.py:199-201 | a shape's score exists exactly when the class can draw it; otherwise the class's draw error is raised |
| ShapesFilter.ApproximationFilter.ScoreAll | program/shapes_filter.py:196-201 | the scored list exists exactly when every shape can be drawn, has one pair per shape, and otherwise fails with the draw error |
| ShapesFilter.ApproximationFilter.ScoreAllAt | program/shapes_filter.py:198-201 | pair i holds shape i and that shape's difference score |
| ShapesFilter.ApproximationFilter.ScoreAllRated | program/shapes_filter.py:198-201 | the pairs list the shapes in order, each with its own score |
| ShapesFilter.ApproximationFilter.ScoreAllExtend | program/shapes_filter.py:198-201 | one more drawable shape appends exactly its (score, shape) pair |
| ShapesFilter.ApproximationFilter.SortedEntriesRated | program/shapes_filter.py:202 | sorting keeps every pair's score the score of its shape |
| ShapesFilter.ApproximationFilter.SortedRatedRanks | program/shapes_filter.py:202-205 | in sorted rated pairs, the shapes come in ranking order |
| ShapesFilter.ApproximationFilter.Ranking | program/shapes_filter.py:189-205 | the ranking exists exactly when every shape can be drawn, has one entry per shape, and otherwise fails with the class's draw error |
| ShapesFilter.ApproximationFilter.RankingIsSortedPermutation | program/shapes_filter.py:189-205 | the ranking is a permutation of the shapes; every ranked shape can be drawn; each ranks before the next (lower score, or an equal score and a smaller tuple) |
| ShapesFilter.ApproximationFilter.RankShapes | program/shapes_filter.py:189-205 | the loop computes the ranking; it fails exactly when some shape cannot be drawn, and then with the class's draw error |
| ShapesFilter.ApproximationFilter.Survivors | program/shapes_filter.py:179 | the survivors are a prefix of the ranked list of length min(num_top_shapes, n), or n + num_top_shapes clipped at 0 for a negative bound |
| ShapesFilter.ApproximationFilter.EvolveCycle | program/shapes_filter.py:180-185 | n evolved shapes, shape k from survivor k mod m; it fails exactly when one of those evolve_shape calls fails |
| ShapesFilter.ApproximationFilter.EvolveCycleStopsAtError | program/shapes_filter.py:182-185 | once one evolve_shape call fails, every longer cycle fails too |
| ShapesFilter.ApproximationFilter.IterationShapes | program/shapes_filter.py:170-187 | an iteration yields exactly max(num_shapes, 0) shapes, shape k evolved from survivor k mod m. With no survivors it raises ZeroDivisionError, and otherwise it fails exactly when an evolve_shape call does |
| ShapesFilter.ApproximationFilter.RunIteration | program/shapes_filter.py:170-187 | the while loop builds exactly the list Iteration describes |
| ShapesFilter.ApproximationFilter.Step | program/shapes_filter.py:159-164 | one pass of the loop body fails exactly when some shape of the population cannot be drawn, and then with the class's draw error; a failing iteration is caught |
| ShapesFilter.ApproximationFilter.RunIterations | program/shapes_filter.py:158-164 | the for loop (rank, then iterate or keep, with a ranking error ending the round) leaves exactly the population after max(num_iterations, 0) steps |
| ShapesFilter.ApproximationFilter.Round | program/shapes_filter.py:146-168 | the round raises RuntimeError for the base class, the selector's error when the image is too small for it, and random_shapes' ValueError when one of its randrange ranges is empty |
| ShapesFilter.ApproximationFilter.RunRound | program/shapes_filter.py:146-168 | the method computes exactly the round's result |
| ShapesFilter.ApproximationFilter.RoundWithoutShapesFails | program/shapes_filter.py:156-168 | with num_shapes not positive the last population is empty, and element 0 raises IndexError |
| ShapesFilter.ApproximationFilter.FixedPointPopulation | program/shapes_filter.py:158-164 | a population one step leaves unchanged stays so for any number of iterations |
| ShapesFilter.ApproximationFilter.StubStepKeepsPopulation | program/shapes_filter.py:159-164 | with the raising evolve_shape, one step leaves a drawable population as it is |
| ShapesFilter.ApproximationFilter.StubEvolveKeepsPopulation | program/shapes_filter.py:158-164 | with the raising evolve_shape, every number of iterations leaves the population as it is |
| ShapesFilter.ApproximationFilter.RoundReturnsFirstRandomShape | program/shapes_filter.py:146-168 | on images larger than 50 x 50, a random-shape-selector round returns its first random shape |
| ShapesFilter.ApproximationFilter.FilterFrom | program/shapes_filter.py:109-120 | a successful run keeps the shapes already committed as a prefix and commits at most max_rounds shapes in all |
| ShapesFilter.ApproximationFilter.FilterFromRecords | program/shapes_filter.py:109-120 | a successful run ends on the base canvas with every committed shape drawn in order, each shape the result of its round on the canvas the earlier shapes made while that canvas was still threshold-similar, and it stops before max_rounds only once the similarity falls below the threshold |
| ShapesFilter.ApproximationFilter.FilterFromSucceeds | program/shapes_filter.py:91-127 | with the random shape selector, num_shapes > 0 and show_steps != 0, the loop never fails on an image larger than 50 x 50, and commits a shape whenever a round runs |
| ShapesFilter.ApproximationFilter.RunFilterWithViewer | program/shapes_filter.py:91-127 | the while loop computes exactly `FilterFrom` from the solid average-colour canvas. On success it commits at most max_rounds shapes, the canvas is the base with them drawn in order, each shape is the result of its round on a canvas that was still threshold-similar, and stopping early means the similarity fell below the threshold. No rounds run when max_rounds <= 0 or the base is already dissimilar; show_steps 0 or the base class raises |
| RegularPolygons.SwappedClamp | program/shapes/regular_polygon.py:38-40 | for low <= high (every call in the source), min(low, max(high, v)) is low |
| RegularPolygons.Clamp | program/shapes/regular_polygon.py:38-40 | the intended clamp lies in [low, high], keeps values inside and moves the others to the nearer bound |
| RegularPolygons.GenerateRandomShape | program/shapes/regular_polygon.py:44-51 | a polygon within the class bounds, with a bare int size |
| RegularPolygons.Perturbed | program/shapes/regular_polygon.py:32-36 | each attribute moves by at most its randint bound; a tuple size raises TypeError |
| RegularPolygons.EvolveShape | program/shapes/regular_polygon.py:32-42 | evolve never returns: AttributeError for an int size, TypeError for a tuple size |
| RegularPolygons.SwappedClampPinsSize | program/shapes/regular_polygon.py:38-40 | the written clamp pins size to 1 and rotation to 0 whatever the value |
| RegularPolygons.EvolveShapeIntended | program/shapes/regular_polygon.py:32-42 | the corrected evolve stays in bounds, moves each attribute by at most its step, and with zero draws returns the shape unchanged |
| RegularPolygons.DrawArgs | program/shapes/regular_polygon.py:53-60 | drawing needs a non-empty tuple size, whose first element is the radius; an int size raises TypeError and an empty tuple IndexError |
| RegularPolygons.GeneratedPolygonCannotBeDrawn | program/shapes/regular_polygon.py:44-60 | a randomly generated polygon cannot be drawn |
| RegularPolygons.GeneratedPolygonCannotEvolve | program/shapes/regular_polygon.py:32-51 | a randomly generated polygon cannot evolve |
| RegularPolygons.GenerateRandomShapeIntended | program/shapes/regular_polygon.py:44-60 | the corrected generator's polygons are in bounds and can always be drawn |
| Squares.NewSquare | program/shapes/square.py:20-24 | a square has 4 sides and keeps the size and rotation it was given |
| Squares.GenerateRandomShape | program/shapes/square.py:36-42 | a square within the class bounds, with a 1-tuple size |
| Squares.Perturbed | program/shapes/square.py:26-29 | size[0] and rotation move by at most their randint bounds; an empty size raises IndexError |
| Squares.EvolveShape | program/shapes/square.py:26-34 | every evolved square is Square((1,), 0), and an empty size raises IndexError |
| Squares.EvolveShapeIntended | program/shapes/square.py:26-34 | the corrected evolve keeps a square in bounds, moves each attribute by at most its step, and with zero draws returns the square unchanged |
| Squares.DrawShape | program/shapes/square.py:44-49 | a square is drawn as the regular polygon with 4 sides and radius size[0] |
| Squares.SquaresAlwaysDrawable | program/shapes/square.py:26-49 | every generated or evolved square can be drawn, with 4 sides |

## Left out

- PIL rasterisation is left out: `ImageDraw`, `Image.new` of a mask and `getextrema`. Drawing is the `paint` parameter, which is only known to keep the image size. Mask questions are the `Raster` oracles.
- Of `ImageChops`, the model covers `difference` on RGB images of any sizes (over the top-left region both cover) and `histogram()` of the result. The `convert('RGB')` path for other modes is left out.
- `average_color` and `color_difference_score_normalized` (the similarity) are parameters. Neither function is defined in `program/color_utils.py`.
- Randomness is modelled as parameters: `random.randrange`, `random.random`, `random.choice` and `random.randint` become explicit draws.
- `eval` in `shape_str_to_tuple` is not modelled. The parser reads exactly the text `shape_tuple_to_str` writes, and any other text is `UnsupportedText`.
- The `ipython` viewer and `logging` are left out, as are `run_filter` (it only raises), `main` and the `Shape` base class in `program/shapes/shape.py`.
- Each `evolve_shape` call is one value of the `evolve` parameter. For the random shape selector that value is `ShapeGenerator.EvolveShape`.
- The selector class is a two-valued datatype (the base class and the random shape selector). No other selector class exists in the source.
- `shape_selector.__init__` and its other base stubs are left out. The base class only raises `NotImplementedError` and is never instantiated by the filter.
- ShapesFilter.ApproximationFilter.RankShapes: its ensures states only its result (the ranking) and the error cases. The ordering and permutation facts are stated of the ranking in `RankingIsSortedPermutation`.
- ShapesFilter.ApproximationFilter.RunFilterWithViewer: the similarity measure is an opaque parameter, so no claim is made that the loop stops by similarity. The loop is bounded by `max_rounds` only, as in the source. When it fails is stated by `FilterFrom`, which the method computes exactly.
- ColorUtils.DifferenceScore: requires images of one size, as the docstring of `color_difference_score` demands. The score of differently sized images is not stated.
- ShapeGenerator.ParseColor: colour channels are bytes, so shape text whose colour values lie outside 0..255 is `UnsupportedText`. `eval` would accept such text.

## Findings

| source | as written | input that shows it | evidently intended | confidence | as-written member | corrected member |
|---|---|---|---|---|---|---|
| program/shapes/square.py:31-32 | `min(_min, max(_max, v))` clamps every value to the lower bound | a square of size (50,) evolved with draws 0, 0 becomes Square((1,), 0) | `min(_max, max(_min, v))`, which keeps in-bound values | high, not executed | Squares.EvolveShape | Squares.EvolveShapeIntended |
| program/shapes/regular_polygon.py:38-40 | the same swapped clamp, followed by a read of `_min_n_sides`, which the class does not define (it defines `_min_sides`) | any polygon with an int size, e.g. RegularPolygon(50, 5, 0): evolve raises AttributeError | clamp each attribute with the `_min_sides` / `_max_sides` bounds | high, not executed | RegularPolygons.EvolveShape | RegularPolygons.EvolveShapeIntended |
| program/shapes/regular_polygon.py:47-58 | generate_random_shape stores an int size, but draw_shape reads `size[0]` and evolve adds an int to `size` | generate_random_shape with draws 50, 5, 0 gives a polygon whose draw raises TypeError | store the size as the 1-tuple the class documents | high, not executed | RegularPolygons.GeneratedPolygonCannotBeDrawn | RegularPolygons.GenerateRandomShapeIntended |

=== FILE: color_utils.dfy ===
/**
 * The pixel comparator: the absolute per-channel difference of two RGB images,
 * the difference score computed from the 768-bin histogram of that difference,
 * and the maximum score for an image of a given size.
 */
module ColorUtils {
  import opened Numbers
  import opened Geometry

  /** An RGB image: `pixels` holds the rows one after another. */
  datatype Image = Image(width: nat, height: nat, pixels: seq<Color>) {
    predicate Valid() { |pixels| == Cells(width, height) }
  }

  /**
   * The number of pixels in `rows` rows of `width` pixels, rows * width, which
   * is also where row `rows` starts.
   */
  function Cells(width: nat, rows: nat): nat {
    if rows == 0 then 0 else Cells(width, rows - 1) + width
  }

  predicate SameSize(a: Image, b: Image) {
    a.Valid() && b.Valid() && a.width == b.width && a.height == b.height
  }

  /** A solid image of one colour, as `Image.new('RGB', (w, h), c)` makes. */
  function Solid(w: nat, h: nat, c: Color): (img: Image)
    ensures img.Valid() && img.width == w && img.height == h
    ensures forall i :: 0 <= i < |img.pixels| ==> img.pixels[i] == c
  {
    Image(w, h, seq(Cells(w, h), _ => c))
  }

  function PixelDifference(p: Color, q: Color): Color {
    Color(Abs(p.r - q.r), Abs(p.g - q.g), Abs(p.b - q.b))
  }

  /** The sum of the absolute channel differences of two pixels. */
  function Distance(p: Color, q: Color): nat {
    Abs(p.r - q.r) + Abs(p.g - q.g) + Abs(p.b - q.b)
  }

  function DifferencePixels(ps: seq<Color>, qs: seq<Color>): (ds: seq<Color>)
    requires |ps| == |qs|
    ensures |ds| == |ps|
    ensures forall i :: 0 <= i < |ds| ==> ds[i] == PixelDifference(ps[i], qs[i])
  {
    if ps == [] then []
    else
      var n := |ps| - 1;
      DifferencePixels(ps[..n], qs[..n]) + [PixelDifference(ps[n], qs[n])]
  }


  lemma {:induction false} CellsIsProduct(width: nat, y: nat)
    ensures Cells(width, y) == y * width
  {
    if y > 0 {
      CellsIsProduct(width, y - 1);
      MulSucc(y - 1, width);
    }
  }

  lemma {:induction false} CellsMono(width: nat, y: nat, z: nat)
    requires y <= z
    ensures Cells(width, y) <= Cells(width, z)
  {
    if y < z {
      CellsMono(width, y, z - 1);
    }
  }

  /** Every row of an image lies inside its pixel sequence. */
  lemma RowInside(img: Image, y: nat)
    requires img.Valid() && y < img.height
    ensures Cells(img.width, y) + img.width <= |img.pixels|
  {
    CellsMono(img.width, y + 1, img.height);
  }

  /** The pixel in column x of row y. */
  function At(img: Image, x: nat, y: nat): Color
    requires img.Valid() && x < img.width && y < img.height
  {
    RowInside(img, y);
    img.pixels[Cells(img.width, y) + x]
  }

  /** The first w pixels of row y. */
  function Row(img: Image, w: nat, y: nat): (row: seq<Color>)
    requires img.Valid() && w <= img.width && y < img.height
    ensures |row| == w
    ensures forall x: nat :: x < w ==> row[x] == At(img, x, y)
  {
    RowInside(img, y);
    var start := Cells(img.width, y);
    img.pixels[start..start + w]
  }

  /** The top-left w x h region of an image, row by row. */
  function Crop(img: Image, w: nat, h: nat): (ps: seq<Color>)
    requires img.Valid() && w <= img.width && h <= img.height
    ensures |ps| == Cells(w, h)
    ensures forall x: nat, y: nat :: x < w && y < h ==> At(Image(w, h, ps), x, y) == At(img, x, y)
  {
    if h == 0 then []
    else
      var rows, row := Crop(img, w, h - 1), Row(img, w, h - 1);
      assert forall x: nat, y: nat :: x < w && y < h ==> At(Image(w, h, rows + row), x, y) == At(img, x, y) by {
        forall x: nat, y: nat | x < w && y < h
          ensures At(Image(w, h, rows + row), x, y) == At(img, x, y)
        {
          if y < h - 1 {
            EarlierRowPixel(w, h, rows, row, x, y);
          } else {
            LastRowPixel(w, h, rows, row, x);
          }
        }
      }
      rows + row
  }

  /** Appending a row keeps the pixels of the rows before it. */
  lemma EarlierRowPixel(w: nat, h: nat, rows: seq<Color>, row: seq<Color>, x: nat, y: nat)
    requires 0 < h && |rows| == Cells(w, h - 1) && |row| == w
    requires x < w && y < h - 1
    ensures At(Image(w, h, rows + row), x, y) == At(Image(w, h - 1, rows), x, y)
  {
    CellsMono(w, y + 1, h - 1);
    var k := Cells(w, y) + x;
    assert At(Image(w, h, rows + row), x, y) == (rows + row)[k] == rows[k];
  }

  /** The appended row is the last row. */
  lemma LastRowPixel(w: nat, h: nat, rows: seq<Color>, row: seq<Color>, x: nat)
    requires 0 < h && |rows| == Cells(w, h - 1) && |row| == w
    requires x < w
    ensures At(Image(w, h, rows + row), x, h - 1) == row[x]
  {
    var k := Cells(w, h - 1) + x;
    assert At(Image(w, h, rows + row), x, h - 1) == (rows + row)[k] == row[x];
  }

  /**
   * The RGB case of the difference image. ImageChops.difference compares the
   * region both images cover, the top-left min-width by min-height part, and
   * every channel of a pixel there is |a - b|.
   */
  function DifferenceImage(a: Image, b: Image): (d: Image)
    requires a.Valid() && b.Valid()
    ensures d.Valid() && d.width == Min(a.width, b.width) && d.height == Min(a.height, b.height)
    ensures forall x: nat, y: nat :: x < d.width && y < d.height ==> At(d, x, y) == PixelDifference(At(a, x, y), At(b, x, y))
    ensures SameSize(a, b) ==> SameSize(d, a) && d.pixels == DifferencePixels(a.pixels, b.pixels)
    ensures SameSize(a, b) ==>
              forall i :: 0 <= i < |d.pixels| ==>
                d.pixels[i].r == Abs(a.pixels[i].r - b.pixels[i].r) &&
                d.pixels[i].g == Abs(a.pixels[i].g - b.pixels[i].g) &&
                d.pixels[i].b == Abs(a.pixels[i].b - b.pixels[i].b)
  {
    var w, h := Min(a.width, b.width), Min(a.height, b.height);
    CroppedDifferenceAt(a, b, w, h);
    SameSizeDifference(a, b);
    Image(w, h, DifferencePixels(Crop(a, w, h), Crop(b, w, h)))
  }

  /** Images of one size are compared whole, pixel i against pixel i. */
  lemma SameSizeDifference(a: Image, b: Image)
    requires a.Valid() && b.Valid()
    ensures SameSize(a, b) ==>
              var ds := DifferencePixels(Crop(a, a.width, a.height), Crop(b, b.width, b.height));
              && ds == DifferencePixels(a.pixels, b.pixels)
              && forall i :: 0 <= i < |ds| ==>
                   ds[i].r == Abs(a.pixels[i].r - b.pixels[i].r) &&
                   ds[i].g == Abs(a.pixels[i].g - b.pixels[i].g) &&
                   ds[i].b == Abs(a.pixels[i].b - b.pixels[i].b)
  {
    if SameSize(a, b) {
      CropWhole(a, a.height);
      CropWhole(b, b.height);
      assert Crop(a, a.width, a.height) == a.pixels;
      assert Crop(b, b.width, b.height) == b.pixels;
      DifferenceChannels(a.pixels, b.pixels, DifferencePixels(a.pixels, b.pixels));
    }
  }

  /** Every channel of a pixel-wise difference is the absolute difference of that channel. */
  lemma DifferenceChannels(ps: seq<Color>, qs: seq<Color>, ds: seq<Color>)
    requires |ps| == |qs| == |ds|
    requires forall i :: 0 <= i < |ds| ==> ds[i] == PixelDifference(ps[i], qs[i])
    ensures forall i :: 0 <= i < |ds| ==>
              ds[i].r == Abs(ps[i].r - qs[i].r) &&
              ds[i].g == Abs(ps[i].g - qs[i].g) &&
              ds[i].b == Abs(ps[i].b - qs[i].b)
  {
  }

  /** Pixel (x, y) of the difference of two crops is the difference of pixel (x, y) of the images. */
  lemma CroppedDifferenceAt(a: Image, b: Image, w: nat, h: nat)
    requires a.Valid() && b.Valid() && w <= a.width && w <= b.width && h <= a.height && h <= b.height
    ensures var d := Image(w, h, DifferencePixels(Crop(a, w, h), Crop(b, w, h)));
            forall x: nat, y: nat :: x < w && y < h ==> At(d, x, y) == PixelDifference(At(a, x, y), At(b, x, y))
  {
    var ca, cb := Crop(a, w, h), Crop(b, w, h);
    var ds := DifferencePixels(ca, cb);
    forall x: nat, y: nat | x < w && y < h
      ensures At(Image(w, h, ds), x, y) == PixelDifference(At(a, x, y), At(b, x, y))
    {
      DifferenceAt(w, h, ca, cb, ds, x, y);
      assert At(Image(w, h, ca), x, y) == At(a, x, y);
      assert At(Image(w, h, cb), x, y) == At(b, x, y);
    }
  }

  /** Pixel (x, y) of a pixel-wise difference is the difference of pixel (x, y) of each image. */
  lemma DifferenceAt(w: nat, h: nat, ps: seq<Color>, qs: seq<Color>, ds: seq<Color>, x: nat, y: nat)
    requires |ps| == |qs| == |ds| == Cells(w, h) && x < w && y < h
    requires forall i :: 0 <= i < |ds| ==> ds[i] == PixelDifference(ps[i], qs[i])
    ensures At(Image(w, h, ds), x, y) == PixelDifference(At(Image(w, h, ps), x, y), At(Image(w, h, qs), x, y))
  {
    RowInside(Image(w, h, ps), y);
    var k := Cells(w, y) + x;
    assert At(Image(w, h, ds), x, y) == ds[k];
    assert At(Image(w, h, ps), x, y) == ps[k];
    assert At(Image(w, h, qs), x, y) == qs[k];
  }

  /** Cropping an image to its full width keeps its first h rows as they are. */
  lemma {:induction false} CropWhole(img: Image, h: nat)
    requires img.Valid() && h <= img.height
    ensures Cells(img.width, h) <= |img.pixels|
    ensures Crop(img, img.width, h) == img.pixels[..Cells(img.width, h)]
  {
    if h > 0 {
      CropWhole(img, h - 1);
      RowInside(img, h - 1);
      var start := Cells(img.width, h - 1);
      assert img.pixels[..start] + img.pixels[start..start + img.width] == img.pixels[..start + img.width];
    } else {
      CellsMono(img.width, 0, img.height);
    }
  }

  /** The value of band 0 (red), 1 (green) or 2 (blue) of a pixel. */
  function Channel(p: Color, band: int): Byte {
    if band == 0 then p.r else if band == 1 then p.g else p.b
  }

  /** How many pixels have value `v` in band `band`. */
  function Count(ps: seq<Color>, band: int, v: int): nat {
    if ps == [] then 0
    else
      var n := |ps| - 1;
      Count(ps[..n], band, v) + (if Channel(ps[n], band) == v then 1 else 0)
  }

  /** Adds one to bin k; the weighted sum grows by the bin's value k mod 256. */
  function Bump(h: seq<nat>, k: nat): (h': seq<nat>)
    requires k < |h|
    ensures h' == h[k := h[k] + 1]
    ensures WeightedSum(h', |h'|) == WeightedSum(h, |h|) + k % 256
  {
    WeightedSumBump(h, k, |h|);
    h[k := h[k] + 1]
  }

  /** Adds one pixel to a 3-band by 256-bin histogram. */
  function Tally(h: seq<nat>, p: Color): (h': seq<nat>)
    requires |h| == 768
    ensures |h'| == 768
    ensures forall i :: 0 <= i < 768 ==> h'[i] == h[i] + (if Channel(p, i / 256) == i % 256 then 1 else 0)
    ensures WeightedSum(h', 768) == WeightedSum(h, 768) + p.r + p.g + p.b
  {
    assert (256 + p.g) % 256 == p.g;
    assert (512 + p.b) % 256 == p.b;
    var h' := Bump(Bump(Bump(h, p.r), 256 + p.g), 512 + p.b);
    forall i | 0 <= i < 768
      ensures h'[i] == h[i] + (if Channel(p, i / 256) == i % 256 then 1 else 0)
    {
      TallyBin(h, p, i);
    }
    h'
  }

  /** Bin i of the three bumps gains one exactly when it is the bin of p's value in i's band. */
  lemma TallyBin(h: seq<nat>, p: Color, i: int)
    requires |h| == 768 && 0 <= i < 768
    ensures Bump(Bump(Bump(h, p.r), 256 + p.g), 512 + p.b)[i] == h[i] + (if Channel(p, i / 256) == i % 256 then 1 else 0)
  {
    BinOf(i);
  }

  /** Bin i belongs to band i / 256 and counts the value i % 256. */
  lemma BinOf(i: int)
    requires 0 <= i < 768
    ensures i < 256 ==> i / 256 == 0 && i % 256 == i
    ensures 256 <= i < 512 ==> i / 256 == 1 && i % 256 == i - 256
    ensures 512 <= i ==> i / 256 == 2 && i % 256 == i - 512
  {
  }

  /** The RGB histogram: bin 256 * band + v counts the pixels with value v in that band. */
  function Histogram(ps: seq<Color>): (h: seq<nat>)
    ensures |h| == 768
    ensures forall i :: 0 <= i < 768 ==> h[i] == Count(ps, i / 256, i % 256)
  {
    if ps == [] then seq(768, _ => 0)
    else
      var n := |ps| - 1;
      Tally(Histogram(ps[..n]), ps[n])
  }

  /** The sum over the first n bins of h[i] * (i mod 256). */
  function WeightedSum(h: seq<nat>, n: nat): nat
    requires n <= |h|
  {
    if n == 0 then 0 else WeightedSum(h, n - 1) + h[n - 1] * ((n - 1) % 256)
  }

  /** Reference definition: the sum over all pixels and channels of |a - b|. */
  function AbsDiffSum(ps: seq<Color>, qs: seq<Color>): nat
    requires |ps| == |qs|
  {
    if ps == [] then 0
    else
      var n := |ps| - 1;
      AbsDiffSum(ps[..n], qs[..n]) + Distance(ps[n], qs[n])
  }

  /** The sum of all channel values of a pixel sequence. */
  function ChannelTotal(ds: seq<Color>): nat {
    if ds == [] then 0
    else
      var n := |ds| - 1;
      ChannelTotal(ds[..n]) + ds[n].r + ds[n].g + ds[n].b
  }

  /**
   * color_difference_score: the histogram of the difference image weighted by
   * bin value; it equals the sum over all pixels and channels of |a - b|.
   */
  function DifferenceScore(a: Image, b: Image): (score: nat)
    requires SameSize(a, b)
    ensures score == AbsDiffSum(a.pixels, b.pixels)
  {
    var d := DifferenceImage(a, b);
    HistogramWeight(d.pixels);
    DifferenceTotal(a.pixels, b.pixels);
    var h := Histogram(d.pixels);
    WeightedSum(h, |h|)
  }

  /**
   * color_difference_max_score: 255 per channel, 3 channels, w * h pixels.
   * A black and a white image of the image's size score exactly this much.
   */
  function MaxScore(img: Image): (m: nat)
    ensures m == DifferenceScore(Solid(img.width, img.height, Color(0, 0, 0)), Solid(img.width, img.height, Color(255, 255, 255)))
  {
    ScoreOfSolidImages(img.width, img.height, Color(0, 0, 0), Color(255, 255, 255));
    765 * img.width * img.height
  }

  // ---------------------------------------------------------------------------
  // The histogram-weighted sum is the plain sum of absolute differences.

  lemma {:induction false} WeightedSumBump(h: seq<nat>, k: nat, n: nat)
    requires k < |h| && n <= |h|
    ensures WeightedSum(h[k := h[k] + 1], n) == WeightedSum(h, n) + (if k < n then k % 256 else 0)
  {
    if n > 0 {
      WeightedSumBump(h, k, n - 1);
    }
  }

  lemma {:induction false} WeightedSumOfZeros(h: seq<nat>, n: nat)
    requires n <= |h|
    requires forall i :: 0 <= i < n ==> h[i] == 0
    ensures WeightedSum(h, n) == 0
  {
    if n > 0 {
      WeightedSumOfZeros(h, n - 1);
    }
  }

  lemma {:induction false} HistogramWeight(ds: seq<Color>)
    ensures WeightedSum(Histogram(ds), 768) == ChannelTotal(ds)
  {
    if ds == [] {
      WeightedSumOfZeros(Histogram(ds), 768);
    } else {
      var n := |ds| - 1;
      HistogramWeight(ds[..n]);
      var h := Histogram(ds[..n]);
      assert Histogram(ds) == Tally(h, ds[n]);
    }
  }

  lemma {:induction false} DifferenceTotal(ps: seq<Color>, qs: seq<Color>)
    requires |ps| == |qs|
    ensures ChannelTotal(DifferencePixels(ps, qs)) == AbsDiffSum(ps, qs)
  {
    if ps != [] {
      var n := |ps| - 1;
      var ds := DifferencePixels(ps, qs);
      assert ds[..n] == DifferencePixels(ps[..n], qs[..n]);
      DifferenceTotal(ps[..n], qs[..n]);
    }
  }

  // ---------------------------------------------------------------------------
  // Properties of the score.

  lemma {:induction false} AbsDiffSumZeroIff(ps: seq<Color>, qs: seq<Color>)
    requires |ps| == |qs|
    ensures AbsDiffSum(ps, qs) == 0 <==> ps == qs
  {
    if ps != [] {
      var n := |ps| - 1;
      AbsDiffSumZeroIff(ps[..n], qs[..n]);
      assert ps == ps[..n] + [ps[n]];
      assert qs == qs[..n] + [qs[n]];
    }
  }

  /** The score is 0 exactly when the two images have the same pixels. */
  lemma ScoreZeroIff(a: Image, b: Image)
    requires SameSize(a, b)
    ensures DifferenceScore(a, b) == 0 <==> a.pixels == b.pixels
  {
    AbsDiffSumZeroIff(a.pixels, b.pixels);
  }

  /** `color_difference_score(img, img) == 0`. */
  lemma ScoreOfSelfIsZero(img: Image)
    requires img.Valid()
    ensures DifferenceScore(img, img) == 0
  {
    AbsDiffSumZeroIff(img.pixels, img.pixels);
  }

  /** The difference image does not depend on the order of its arguments. */
  lemma DifferenceImageSymmetric(a: Image, b: Image)
    requires a.Valid() && b.Valid()
    ensures DifferenceImage(a, b) == DifferenceImage(b, a)
  {
    var w, h := Min(a.width, b.width), Min(a.height, b.height);
    var ca, cb := Crop(a, w, h), Crop(b, w, h);
    DifferencePixelsSymmetric(ca, cb, DifferencePixels(ca, cb), DifferencePixels(cb, ca));
  }

  lemma DifferencePixelsSymmetric(ps: seq<Color>, qs: seq<Color>, ds: seq<Color>, es: seq<Color>)
    requires |ps| == |qs| == |ds| == |es|
    requires forall i :: 0 <= i < |ds| ==> ds[i] == PixelDifference(ps[i], qs[i])
    requires forall i :: 0 <= i < |es| ==> es[i] == PixelDifference(qs[i], ps[i])
    ensures ds == es
  {
    assert forall i :: 0 <= i < |ds| ==> ds[i] == es[i];
  }

  lemma ScoreSymmetric(a: Image, b: Image)
    requires SameSize(a, b)
    ensures DifferenceScore(a, b) == DifferenceScore(b, a)
  {
    DifferenceImageSymmetric(a, b);
  }

  lemma {:induction false} AbsDiffSumOfConstants(ps: seq<Color>, qs: seq<Color>, p: Color, q: Color)
    requires |ps| == |qs|
    requires forall i :: 0 <= i < |ps| ==> ps[i] == p && qs[i] == q
    ensures AbsDiffSum(ps, qs) == |ps| * Distance(p, q)
  {
    if ps != [] {
      var n := |ps| - 1;
      var d := Distance(p, q);
      AbsDiffSumOfConstants(ps[..n], qs[..n], p, q);
      assert AbsDiffSum(ps, qs) == AbsDiffSum(ps[..n], qs[..n]) + d;
      MulSucc(n, d);
    }
  }

  lemma MulSucc(n: nat, d: nat)
    ensures n * d + d == (n + 1) * d
  {
  }

  lemma MulRearrange(w: nat, h: nat, d: nat)
    ensures (w * h) * d == d * w * h
  {
  }

  /** Two solid w x h images score (sum of channel deltas) * w * h. */
  lemma ScoreOfSolidImages(w: nat, h: nat, p: Color, q: Color)
    ensures DifferenceScore(Solid(w, h, p), Solid(w, h, q)) == Distance(p, q) * w * h
  {
    var a, b := Solid(w, h, p), Solid(w, h, q);
    var d := Distance(p, q);
    AbsDiffSumOfConstants(a.pixels, b.pixels, p, q);
    CellsIsProduct(w, h);
    assert DifferenceScore(a, b) == (w * h) * d;
    MulRearrange(w, h, d);
  }

  /** The test case: red 255 against red 250 on 100 x 100 pixels scores 5 * 100 * 100. */
  lemma ScoreOfRedShades()
    ensures DifferenceScore(Solid(100, 100, Color(255, 0, 0)), Solid(100, 100, Color(250, 0, 0))) == 5 * 100 * 100
  {
    ScoreOfSolidImages(100, 100, Color(255, 0, 0), Color(250, 0, 0));
  }

  lemma {:induction false} AbsDiffSumBound(ps: seq<Color>, qs: seq<Color>)
    requires |ps| == |qs|
    ensures AbsDiffSum(ps, qs) <= 765 * |ps|
  {
    if ps != [] {
      var n := |ps| - 1;
      AbsDiffSumBound(ps[..n], qs[..n]);
    }
  }

  /** No two images of the same size score more than color_difference_max_score. */
  lemma ScoreAtMostMax(a: Image, b: Image)
    requires SameSize(a, b)
    ensures DifferenceScore(a, b) <= MaxScore(a)
  {
    AbsDiffSumBound(a.pixels, b.pixels);
    CellsIsProduct(a.width, a.height);
    assert 765 * |a.pixels| == 765 * a.width * a.height;
  }
}

=== FILE: decimal.dfy ===
/** Python's decimal text of an int (`str(n)`) and a reader for exactly that text. */
module Decimal {
  import opened Outcomes

  predicate IsDigit(c: char) { '0' <= c <= '9' }

  predicate AllDigits(s: string) { forall i :: 0 <= i < |s| ==> IsDigit(s[i]) }

  function DigitChar(d: int): (c: char)
    requires 0 <= d < 10
    ensures IsDigit(c)
  {
    (48 + d) as char
  }

  function DigitValue(c: char): int
    requires IsDigit(c)
  {
    c as int - 48
  }

  /** Decimal digits of n, most significant first, no leading zeros. */
  function NatToStr(n: nat): (s: string)
    ensures |s| > 0 && AllDigits(s)
  {
    if n < 10 then [DigitChar(n)] else NatToStr(n / 10) + [DigitChar(n % 10)]
  }

  /** `str(n)` for a Python int: a minus sign for negative values. */
  function IntToStr(n: int): (s: string)
    ensures forall i :: 0 <= i < |s| ==> IsDigit(s[i]) || s[i] == '-'
    ensures |s| > 0 && (s[0] == '-' <==> n < 0)
  {
    if n < 0 then "-" + NatToStr(-n) else NatToStr(n)
  }

  function DigitsValue(s: string): nat
    requires AllDigits(s)
  {
    if s == [] then 0 else DigitsValue(s[..|s| - 1]) * 10 + DigitValue(s[|s| - 1])
  }

  /** The length of the run of digits at the start of s. */
  function LeadingDigits(s: string): (k: nat)
    ensures k <= |s|
    ensures forall i :: 0 <= i < k ==> IsDigit(s[i])
    ensures k < |s| ==> !IsDigit(s[k])
  {
    if s == [] || !IsDigit(s[0]) then 0 else 1 + LeadingDigits(s[1..])
  }

  /** Reads a run of digits; yields its value and the rest of the text. */
  function ParseNat(s: string): Option<(nat, string)> {
    var k := LeadingDigits(s);
    if k == 0 then None else Some((DigitsValue(s[..k]), s[k..]))
  }

  /** Reads an optionally negative decimal int; yields its value and the rest of the text. */
  function ParseInt(s: string): Option<(int, string)> {
    if |s| > 0 && s[0] == '-' then
      var p :- ParseNat(s[1..]);
      var magnitude: int := p.0;
      Some((-magnitude, p.1))
    else
      ParseNat(s)
  }

  /** Text that cannot continue a number. */
  predicate Stops(rest: string) { rest == [] || !IsDigit(rest[0]) }

  lemma {:induction false} NatToStrValue(n: nat)
    ensures DigitsValue(NatToStr(n)) == n
  {
    if n >= 10 {
      NatToStrValue(n / 10);
      var s := NatToStr(n);
      assert s[..|s| - 1] == NatToStr(n / 10);
    }
  }

  lemma {:induction false} LeadingDigitsOf(d: string, rest: string)
    requires AllDigits(d) && Stops(rest)
    ensures LeadingDigits(d + rest) == |d|
  {
    if d != [] {
      assert (d + rest)[1..] == d[1..] + rest;
      LeadingDigitsOf(d[1..], rest);
    }
  }

  lemma ParseNatOf(d: string, rest: string)
    requires |d| > 0 && AllDigits(d) && Stops(rest)
    ensures ParseNat(d + rest) == Some((DigitsValue(d), rest))
  {
    LeadingDigitsOf(d, rest);
    assert (d + rest)[..|d|] == d;
    assert (d + rest)[|d|..] == rest;
  }

  /** Reading back `str(n)` yields n and leaves the text that follows. */
  lemma ParseIntToStr(n: int, rest: string)
    requires Stops(rest)
    ensures ParseInt(IntToStr(n) + rest) == Some((n, rest))
  {
    if n < 0 {
      var d := NatToStr(-n);
      NatToStrValue(-n);
      ParseNatOf(d, rest);
      var t := IntToStr(n) + rest;
      assert t == "-" + (d + rest);
      assert t[0] == '-' && t[1..] == d + rest;
    } else {
      var d := NatToStr(n);
      NatToStrValue(n);
      ParseNatOf(d, rest);
      var t := IntToStr(n) + rest;
      assert t == d + rest;
      assert IsDigit(t[0]);
    }
  }
}

=== FILE: geometry.dfy ===
/** Points and colours as the modelled code passes them around: tuples of ints. */
module Geometry {

  /** An `(x, y)` pixel coordinate; (0, 0) is the top-left corner of the image. */
  datatype Point = Point(x: int, y: int)

  /** One 8-bit colour channel value. */
  type Byte = x: int | 0 <= x < 256

  /** An `(r, g, b)` colour tuple: a pixel of an RGB image, or a shape's fill. */
  datatype Color = Color(r: Byte, g: Byte, b: Byte)
}

=== FILE: numbers.dfy ===
/** Integer helpers for Python's built-in `min`, `max` and `abs`. */
module Numbers {

  function Min(a: int, b: int): int { if a <= b then a else b }

  function Max(a: int, b: int): int { if a >= b then a else b }

  function Abs(x: int): nat { if x < 0 then -x else x }
}

=== FILE: outcomes.dfy ===
/** Failure-compatible wrappers and the Python exceptions the modelled code can raise. */
module Outcomes {

  datatype Option<+T> = None | Some(value: T) {
    predicate IsFailure() { None? }

    function PropagateFailure<U>(): Option<U>
      requires None?
    {
      None
    }

    function Extract(): T
      requires Some?
    {
      value
    }
  }

  /** Why a `ValueError` was raised. */
  datatype ValueReason =
    | BadBoxFormat        // the bounding box could not be unpacked
    | InvertedBox         // x0 >= x1 or y0 >= y1
    | MinNotBelowMax      // min_size >= max_size
    | MinNotPositive      // min_size <= 0
    | MinNotContainable   // min_size does not fit the bounding box
    | EmptyRange          // random.randrange was given an empty range
    | UnknownShapeName    // draw_shape was given a name it does not draw
    | WrongFieldCount     // a shape string did not split into three fields

  /** The exception kinds the modelled code raises. */
  datatype PyError =
    | ValueError(reason: ValueReason)
    | TypeError
    | AttributeError
    | IndexError
    | ZeroDivisionError
    | RuntimeError
    | NotImplementedError
    | UnsupportedText     // text that is not of the form shape_tuple_to_str writes

  datatype Result<+T> = Ok(value: T) | Err(error: PyError) {
    predicate IsFailure() { Err? }

    function PropagateFailure<U>(): Result<U>
      requires Err?
    {
      Err(error)
    }

    function Extract(): T
      requires Ok?
    {
      value
    }
  }
}

=== FILE: regular_polygon.dfy ===
/**
 * The regular-polygon shape variant: a value with a size, a side count and a
 * rotation in degrees, bounded by class constants. Random draws are parameters.
 */
module RegularPolygons {
  import opened Outcomes
  import opened Numbers
  import opened Geometry

  /**
   * The `size` attribute. The class documents it as a 1-tuple (and Square
   * stores one), but generate_random_shape stores a bare int.
   */
  datatype Size = Scalar(n: int) | Tuple(items: seq<int>)

  datatype RegularPolygon = RegularPolygon(size: Size, nSides: int, rotation: int)

  /** The arguments `draw_shape` hands to the rasteriser's `regular_polygon`. */
  datatype PolygonCall = PolygonCall(center: Point, radius: int, nSides: int, rotation: int, fill: Color)

  /** The perturbed, not yet clamped, attribute values of an evolve step. */
  datatype Perturbation = Perturbation(size: int, nSides: int, rotation: int)

  const MinSize := 1
  const MaxSize := 100
  const MinSides := 3
  const MaxSides := 10
  const MinRotation := 0
  const MaxRotation := 359

  /** The largest change one evolve step draws for each attribute (randint bounds). */
  const SizeStep := 5
  const SidesStep := 2
  const RotationStep := 10

  /** The size value a draw uses: the int itself, or the first element of the tuple. */
  predicate SizeIn(s: Size, low: int, high: int) {
    match s
    case Scalar(n) => low <= n <= high
    case Tuple(items) => |items| > 0 && low <= items[0] <= high
  }

  /** Every attribute within the class's [min, max] constants. */
  predicate InBounds(p: RegularPolygon) {
    && SizeIn(p.size, MinSize, MaxSize)
    && MinSides <= p.nSides <= MaxSides
    && MinRotation <= p.rotation <= MaxRotation
  }

  /** The clamp as the source writes it: min(low, max(high, v)). */
  function SwappedClamp(low: int, high: int, v: int): (r: int)
    ensures low <= high ==> r == low
  {
    Min(low, Max(high, v))
  }

  /** The clamp the code evidently means: min(high, max(low, v)). */
  function Clamp(low: int, high: int, v: int): (r: int)
    requires low <= high
    ensures low <= r <= high
    ensures low <= v <= high ==> r == v
    ensures v < low ==> r == low
    ensures v > high ==> r == high
  {
    Min(high, Max(low, v))
  }

  /** generate_random_shape, with the three randint draws as parameters. */
  function GenerateRandomShape(size: int, nSides: int, rotation: int): (p: RegularPolygon)
    requires MinSize <= size <= MaxSize
    requires MinSides <= nSides <= MaxSides
    requires MinRotation <= rotation <= MaxRotation
    ensures InBounds(p)
    ensures p.size.Scalar? && p.size.n == size && p.nSides == nSides && p.rotation == rotation
  {
    RegularPolygon(Scalar(size), nSides, rotation)
  }

  /**
   * The first three lines of evolve_shape: each attribute plus its randint draw.
   * Adding an int to a tuple size raises TypeError.
   */
  function Perturbed(p: RegularPolygon, dSize: int, dSides: int, dRotation: int): (r: Result<Perturbation>)
    requires -SizeStep <= dSize <= SizeStep
    requires -SidesStep <= dSides <= SidesStep
    requires -RotationStep <= dRotation <= RotationStep
    ensures r.Ok? <==> p.size.Scalar?
    ensures r.Err? ==> r.error == TypeError
    ensures r.Ok? ==> && Abs(r.value.size - p.size.n) <= SizeStep
                      && Abs(r.value.nSides - p.nSides) <= SidesStep
                      && Abs(r.value.rotation - p.rotation) <= RotationStep
  {
    match p.size
    case Tuple(_) => Err(TypeError)
    case Scalar(n) => Ok(Perturbation(n + dSize, p.nSides + dSides, p.rotation + dRotation))
  }

  /**
   * evolve_shape as written. After perturbing, it clamps the size (with the
   * swapped clamp) and then reads `_min_n_sides`, an attribute the class does
   * not define, so it never returns a polygon.
   */
  function EvolveShape(p: RegularPolygon, dSize: int, dSides: int, dRotation: int): (r: Result<RegularPolygon>)
    requires -SizeStep <= dSize <= SizeStep
    requires -SidesStep <= dSides <= SidesStep
    requires -RotationStep <= dRotation <= RotationStep
    ensures r.Err?
    ensures r.error == (if p.size.Scalar? then AttributeError else TypeError)
  {
    var v :- Perturbed(p, dSize, dSides, dRotation);
    var newSize := SwappedClamp(MinSize, MaxSize, v.size);
    Err(AttributeError)
  }

  /** The evolved size, had the clamp and the attribute names been right. */
  lemma SwappedClampPinsSize(v: int)
    ensures SwappedClamp(MinSize, MaxSize, v) == MinSize
    ensures SwappedClamp(MinRotation, MaxRotation, v) == MinRotation
  {
  }

  /**
   * evolve_shape as evidently intended: the size is the 1-tuple the class
   * documents, each attribute is perturbed and then clamped into its bounds.
   */
  function EvolveShapeIntended(p: RegularPolygon, dSize: int, dSides: int, dRotation: int): (r: RegularPolygon)
    requires p.size.Tuple? && |p.size.items| > 0
    requires -SizeStep <= dSize <= SizeStep
    requires -SidesStep <= dSides <= SidesStep
    requires -RotationStep <= dRotation <= RotationStep
    ensures InBounds(r) && r.size.Tuple? && |r.size.items| == 1
    ensures InBounds(p) ==> && Abs(r.size.items[0] - p.size.items[0]) <= SizeStep
                            && Abs(r.nSides - p.nSides) <= SidesStep
                            && Abs(r.rotation - p.rotation) <= RotationStep
    ensures InBounds(p) && |p.size.items| == 1 && dSize == 0 && dSides == 0 && dRotation == 0 ==> r == p
  {
    RegularPolygon(
      Tuple([Clamp(MinSize, MaxSize, p.size.items[0] + dSize)]),
      Clamp(MinSides, MaxSides, p.nSides + dSides),
      Clamp(MinRotation, MaxRotation, p.rotation + dRotation))
  }

  /**
   * The argument construction of draw_shape: the bounding circle is the
   * position and `size[0]`; side count and rotation are passed unchanged.
   * Indexing an int size raises TypeError, an empty tuple IndexError.
   */
  function DrawArgs(p: RegularPolygon, position: Point, color: Color): (r: Result<PolygonCall>)
    ensures r.Ok? <==> p.size.Tuple? && |p.size.items| > 0
    ensures p.size.Scalar? ==> r == Err(TypeError)
    ensures p.size.Tuple? && |p.size.items| == 0 ==> r == Err(IndexError)
    ensures r.Ok? ==> && r.value.center == position && r.value.radius == p.size.items[0]
                      && r.value.nSides == p.nSides && r.value.rotation == p.rotation
                      && r.value.fill == color
  {
    match p.size
    case Scalar(_) => Err(TypeError)
    case Tuple(items) =>
      if |items| == 0 then Err(IndexError)
      else Ok(PolygonCall(position, items[0], p.nSides, p.rotation, color))
  }

  /** A randomly generated polygon can never be drawn: its size is a bare int. */
  lemma GeneratedPolygonCannotBeDrawn(size: int, nSides: int, rotation: int, position: Point, color: Color)
    requires MinSize <= size <= MaxSize
    requires MinSides <= nSides <= MaxSides
    requires MinRotation <= rotation <= MaxRotation
    ensures DrawArgs(GenerateRandomShape(size, nSides, rotation), position, color) == Err(TypeError)
  {
  }

  /** A randomly generated polygon cannot evolve either: the attribute lookup fails. */
  lemma GeneratedPolygonCannotEvolve(size: int, nSides: int, rotation: int, dSize: int, dSides: int, dRotation: int)
    requires MinSize <= size <= MaxSize
    requires MinSides <= nSides <= MaxSides
    requires MinRotation <= rotation <= MaxRotation
    requires -SizeStep <= dSize <= SizeStep
    requires -SidesStep <= dSides <= SidesStep
    requires -RotationStep <= dRotation <= RotationStep
    ensures EvolveShape(GenerateRandomShape(size, nSides, rotation), dSize, dSides, dRotation) == Err(AttributeError)
  {
  }

  /** generate_random_shape as evidently intended: the size stored as a 1-tuple. */
  function GenerateRandomShapeIntended(size: int, nSides: int, rotation: int): (p: RegularPolygon)
    requires MinSize <= size <= MaxSize
    requires MinSides <= nSides <= MaxSides
    requires MinRotation <= rotation <= MaxRotation
    ensures InBounds(p)
    ensures forall position, color :: DrawArgs(p, position, color).Ok?
  {
    RegularPolygon(Tuple([size]), nSides, rotation)
  }
}

=== FILE: shape_generator.dfy ===
/**
 * The random shape selector: a bounding box and a size range from which
 * ellipses and rectangles are drawn at random, plus the drawing dispatch and
 * the text form of a shape tuple. Every random draw is a parameter, and the
 * two rasteriser questions a shape needs answered (is the ellipse mask empty,
 * what is the average target colour under a mask) are oracle functions.
 */
module ShapeGenerator {
  import opened Outcomes
  import opened Numbers
  import opened Geometry
  import Decimal

  /** The `bbox` argument: a list of two (x, y) tuples, or a list of four ints. */
  datatype BBoxArg = PointList(points: seq<seq<int>>) | IntList(ints: seq<int>)

  /** The stored bounding box [x0, y0, x1, y1]. */
  datatype Box = Box(x0: int, y0: int, x1: int, y1: int)

  /** A random_shape_selector object; its fields are never changed after construction. */
  datatype Selector = Selector(bbox: Box, minSize: int, maxSize: int) {
    /** What the constructor's checks establish. */
    predicate Valid() {
      && bbox.x0 < bbox.x1 && bbox.y0 < bbox.y1
      && 0 < minSize < maxSize
      && minSize < bbox.x1 - bbox.x0 && minSize < bbox.y1 - bbox.y0
    }
  }

  /** The `xy` field: the top-left and the bottom-right corner of the shape's box. */
  datatype Corners = Corners(topLeft: Point, bottomRight: Point)

  /** The namedtuple (shape, xy, color) describing one shape. */
  datatype ShapeTuple = ShapeTuple(name: string, xy: Corners, color: Color)

  /** The ImageDraw call draw_shape makes. */
  datatype DrawCall = EllipseCall(xy: Corners, fill: Color) | RectangleCall(xy: Corners, fill: Color)

  /**
   * The random draws of one random_shape call, in program order: the anchor
   * point, the left/right choice and the second x, the up/down choice and the
   * second y, and whether random.choice picked 'ellipse'.
   */
  datatype Draws = Draws(p1x: int, p1y: int, leftward: bool, p2x: int, upward: bool, p2y: int, ellipse: bool)

  /**
   * The rasteriser's answers random_shape needs: whether the ellipse drawn in
   * a box leaves the mask empty inside the target, and the average target
   * colour under the mask of the named shape in a box.
   */
  datatype Raster = Raster(ellipseMaskEmpty: Corners -> bool, averageColor: (string, Corners) -> Color)

  /** The half-open range [lo, hi) handed to random.randrange. */
  datatype Range = Range(lo: int, hi: int) {
    predicate IsEmpty() { lo >= hi }
    predicate Contains(v: int) { lo <= v < hi }
  }

  /** Unpacks either form of the bounding box, raising as the tuple unpacking does. */
  function UnpackBBox(arg: BBoxArg): (r: Result<Box>)
    ensures r.Err? ==> r.error == IndexError || r.error == ValueError(BadBoxFormat)
    ensures arg.PointList? ==> && (r == Err(IndexError) <==> |arg.points| == 0)
                               && (r.Ok? <==> |arg.points| == 2 && |arg.points[0]| == 2 && |arg.points[1]| == 2)
    ensures arg.PointList? && r.Ok? ==>
              r.value == Box(arg.points[0][0], arg.points[0][1], arg.points[1][0], arg.points[1][1])
    ensures arg.IntList? ==> && (r == Err(IndexError) <==> |arg.ints| == 0)
                             && (r.Ok? <==> |arg.ints| == 4)
    ensures arg.IntList? && r.Ok? ==> r.value == Box(arg.ints[0], arg.ints[1], arg.ints[2], arg.ints[3])
  {
    match arg
    case PointList(points) =>
      if |points| == 0 then Err(IndexError)
      else if |points| != 2 || |points[0]| != 2 || |points[1]| != 2 then Err(ValueError(BadBoxFormat))
      else Ok(Box(points[0][0], points[0][1], points[1][0], points[1][1]))
    case IntList(ints) =>
      if |ints| == 0 then Err(IndexError)
      else if |ints| != 4 then Err(ValueError(BadBoxFormat))
      else Ok(Box(ints[0], ints[1], ints[2], ints[3]))
  }

  /**
   * random_shape_selector.__init__: the selector exists exactly when the box
   * unpacks and passes every check; the checks run in the order of the source.
   */
  function NewSelector(arg: BBoxArg, minSize: int, maxSize: int): (r: Result<Selector>)
    ensures r.Ok? <==> UnpackBBox(arg).Ok? && Selector(UnpackBBox(arg).value, minSize, maxSize).Valid()
    ensures r.Ok? ==> r.value.Valid() && r.value == Selector(UnpackBBox(arg).value, minSize, maxSize)
    ensures UnpackBBox(arg).Err? ==> r == Err(UnpackBBox(arg).error)
    ensures UnpackBBox(arg).Ok? ==>
              var b := UnpackBBox(arg).value;
              && (b.x0 >= b.x1 || b.y0 >= b.y1 ==> r == Err(ValueError(InvertedBox)))
              && (b.x0 < b.x1 && b.y0 < b.y1 && minSize >= maxSize ==> r == Err(ValueError(MinNotBelowMax)))
              && (b.x0 < b.x1 && b.y0 < b.y1 && minSize < maxSize && minSize <= 0 ==> r == Err(ValueError(MinNotPositive)))
              && (b.x0 < b.x1 && b.y0 < b.y1 && 0 < minSize < maxSize && (minSize >= b.x1 - b.x0 || minSize >= b.y1 - b.y0) ==>
                    r == Err(ValueError(MinNotContainable)))
  {
    var b :- UnpackBBox(arg);
    if b.x0 >= b.x1 || b.y0 >= b.y1 then Err(ValueError(InvertedBox))
    else if minSize >= maxSize then Err(ValueError(MinNotBelowMax))
    else if minSize <= 0 then Err(ValueError(MinNotPositive))
    else if minSize >= b.x1 - b.x0 || minSize >= b.y1 - b.y0 then Err(ValueError(MinNotContainable))
    else Ok(Selector(b, minSize, maxSize))
  }

  /** The two bounding-box forms describe the same selector. */
  lemma BBoxFormsAgree(x0: int, y0: int, x1: int, y1: int, minSize: int, maxSize: int)
    ensures NewSelector(PointList([[x0, y0], [x1, y1]]), minSize, maxSize)
         == NewSelector(IntList([x0, y0, x1, y1]), minSize, maxSize)
    ensures NewSelector(IntList([x0, y0, x1, y1]), minSize, maxSize).Ok?
        <==> x0 < x1 && y0 < y1 && 0 < minSize < maxSize && minSize < x1 - x0 && minSize < y1 - y0
    ensures NewSelector(IntList([x0, y0, x1, y1]), minSize, maxSize).Ok? ==>
              NewSelector(IntList([x0, y0, x1, y1]), minSize, maxSize).value == Selector(Box(x0, y0, x1, y1), minSize, maxSize)
  {
  }

  /**
   * The range of the anchor coordinate along one axis: the values at least
   * min_size inside both the box and the image.
   */
  function AnchorRange(low: int, high: int, extent: int, minSize: int): (r: Range)
    ensures forall v :: r.Contains(v) <==> && 0 <= v - minSize && low <= v - minSize
                                           && v + minSize < high && v + minSize < extent
  {
    Range(Max(0, low) + minSize, Min(high, extent) - minSize)
  }

  /**
   * The range of the second coordinate along one axis, on the chosen side of
   * the anchor p: the values in the box whose distance to p keeps the side
   * length between min_size and max_size.
   */
  function SecondRange(low: int, high: int, p: int, backward: bool, minSize: int, maxSize: int): (r: Range)
    ensures backward ==> forall q :: r.Contains(q) <==> low <= q && minSize < p - q <= maxSize
    ensures !backward ==> forall q :: r.Contains(q) <==> q < high && minSize <= q - p < maxSize
  {
    if backward then Range(Max(low, p - maxSize), p - minSize)
    else Range(p + minSize, Min(high, p + maxSize))
  }

  function AnchorRangeX(sel: Selector, width: int): Range { AnchorRange(sel.bbox.x0, sel.bbox.x1, width, sel.minSize) }
  function AnchorRangeY(sel: Selector, height: int): Range { AnchorRange(sel.bbox.y0, sel.bbox.y1, height, sel.minSize) }

  function SecondRangeX(sel: Selector, d: Draws): Range {
    SecondRange(sel.bbox.x0, sel.bbox.x1, d.p1x, d.leftward, sel.minSize, sel.maxSize)
  }

  function SecondRangeY(sel: Selector, d: Draws): Range {
    SecondRange(sel.bbox.y0, sel.bbox.y1, d.p1y, d.upward, sel.minSize, sel.maxSize)
  }

  /** Each draw lies in the range randrange was given, whenever that range is not empty. */
  predicate DrawsFit(sel: Selector, width: int, height: int, d: Draws) {
    && (!AnchorRangeX(sel, width).IsEmpty() ==> AnchorRangeX(sel, width).Contains(d.p1x))
    && (!AnchorRangeY(sel, height).IsEmpty() ==> AnchorRangeY(sel, height).Contains(d.p1y))
    && (!SecondRangeX(sel, d).IsEmpty() ==> SecondRangeX(sel, d).Contains(d.p2x))
    && (!SecondRangeY(sel, d).IsEmpty() ==> SecondRangeY(sel, d).Contains(d.p2y))
  }

  /** The forward range after an anchor from the anchor range is never empty. */
  lemma ForwardRangeNonEmpty(low: int, high: int, extent: int, p: int, minSize: int, maxSize: int)
    requires 0 < minSize < maxSize
    requires AnchorRange(low, high, extent, minSize).Contains(p)
    ensures !SecondRange(low, high, p, false, minSize, maxSize).IsEmpty()
  {
  }

  /**
   * The backward range after an anchor from the anchor range is empty exactly
   * when the anchor is min_size from the box edge; this can only happen when
   * the box edge is not outside the image.
   */
  lemma BackwardRangeEmptyIff(low: int, high: int, extent: int, p: int, minSize: int, maxSize: int)
    requires 0 < minSize < maxSize
    requires AnchorRange(low, high, extent, minSize).Contains(p)
    ensures SecondRange(low, high, p, true, minSize, maxSize).IsEmpty() <==> p == low + minSize
    ensures low < 0 ==> !SecondRange(low, high, p, true, minSize, maxSize).IsEmpty()
  {
  }

  /** The name random_shape gives a shape: an ellipse whose mask is empty falls back to a rectangle. */
  function ShapeName(ellipse: bool, maskEmpty: bool): (name: string)
    ensures name == "ellipse" || name == "rectangle"
    ensures name == "ellipse" <==> ellipse && !maskEmpty
  {
    if ellipse && !maskEmpty then "ellipse" else "rectangle"
  }

  /**
   * random_shape. It raises ValueError exactly when one of the randrange
   * ranges is empty; otherwise its box is the two drawn points normalised to
   * top-left and bottom-right corners, lies in the selector's
   * bounding box, has sides between min_size and max_size, and has the anchor
   * point, which lies strictly inside the image, as one of its corners.
   */
  function RandomShape(sel: Selector, width: int, height: int, d: Draws, raster: Raster): (r: Result<ShapeTuple>)
    requires sel.Valid()
    requires DrawsFit(sel, width, height, d)
    ensures r.Err? ==> r.error == ValueError(EmptyRange)
    ensures r.Ok? <==> && !AnchorRangeX(sel, width).IsEmpty() && !AnchorRangeY(sel, height).IsEmpty()
                       && !(d.leftward && d.p1x == sel.bbox.x0 + sel.minSize)
                       && !(d.upward && d.p1y == sel.bbox.y0 + sel.minSize)
    ensures r.Ok? ==>
              var tl, br := r.value.xy.topLeft, r.value.xy.bottomRight;
              && sel.bbox.x0 <= tl.x && br.x < sel.bbox.x1
              && sel.bbox.y0 <= tl.y && br.y < sel.bbox.y1
              && sel.minSize <= br.x - tl.x <= sel.maxSize
              && sel.minSize <= br.y - tl.y <= sel.maxSize
              && (tl.x == d.p1x || br.x == d.p1x) && (tl.y == d.p1y || br.y == d.p1y)
              && 0 < d.p1x < width && 0 < d.p1y < height
    ensures r.Ok? ==> r.value.xy == Corners(Point(Min(d.p1x, d.p2x), Min(d.p1y, d.p2y)), Point(Max(d.p1x, d.p2x), Max(d.p1y, d.p2y)))
    ensures r.Ok? ==> && r.value.name == ShapeName(d.ellipse, raster.ellipseMaskEmpty(r.value.xy))
                      && r.value.color == raster.averageColor(r.value.name, r.value.xy)
  {
    var ax, ay := AnchorRangeX(sel, width), AnchorRangeY(sel, height);
    if ax.IsEmpty() || ay.IsEmpty() then Err(ValueError(EmptyRange))
    else
      var sx := SecondRangeX(sel, d);
      ForwardRangeNonEmpty(sel.bbox.x0, sel.bbox.x1, width, d.p1x, sel.minSize, sel.maxSize);
      BackwardRangeEmptyIff(sel.bbox.x0, sel.bbox.x1, width, d.p1x, sel.minSize, sel.maxSize);
      if sx.IsEmpty() then Err(ValueError(EmptyRange))
      else
        var sy := SecondRangeY(sel, d);
        ForwardRangeNonEmpty(sel.bbox.y0, sel.bbox.y1, height, d.p1y, sel.minSize, sel.maxSize);
        BackwardRangeEmptyIff(sel.bbox.y0, sel.bbox.y1, height, d.p1y, sel.minSize, sel.maxSize);
        if sy.IsEmpty() then Err(ValueError(EmptyRange))
        else
          var xy := Corners(Point(Min(d.p1x, d.p2x), Min(d.p1y, d.p2y)), Point(Max(d.p1x, d.p2x), Max(d.p1y, d.p2y)));
          var name := ShapeName(d.ellipse, raster.ellipseMaskEmpty(xy));
          Ok(ShapeTuple(name, xy, raster.averageColor(name, xy)))
  }

  /**
   * random_shapes: the list comprehension calling random_shape n times (none
   * for n <= 0), the i-th call using the i-th draws. Every failing call raises
   * the same ValueError, so the first one's error is any one's.
   */
  function RandomShapes(sel: Selector, width: int, height: int, draws: seq<Draws>, raster: Raster, n: int): (r: Result<seq<ShapeTuple>>)
    requires sel.Valid()
    requires |draws| == Max(n, 0)
    requires forall i :: 0 <= i < |draws| ==> DrawsFit(sel, width, height, draws[i])
    ensures r.Ok? <==> forall i :: 0 <= i < |draws| ==> RandomShape(sel, width, height, draws[i], raster).Ok?
    ensures r.Err? ==> r.error == ValueError(EmptyRange)
    ensures r.Ok? ==> && |r.value| == |draws|
                      && forall i :: 0 <= i < |draws| ==> r.value[i] == RandomShape(sel, width, height, draws[i], raster).value
  {
    if forall i :: 0 <= i < |draws| ==> RandomShape(sel, width, height, draws[i], raster).Ok? then
      Ok(seq(|draws|, i requires 0 <= i < |draws| => RandomShape(sel, width, height, draws[i], raster).value))
    else
      Err(ValueError(EmptyRange))
  }

  /** draw_shape: an ellipse or a rectangle call with the tuple's box and colour; other names raise ValueError. */
  function DrawShape(shape: ShapeTuple): (r: Result<DrawCall>)
    ensures r.Ok? <==> shape.name == "ellipse" || shape.name == "rectangle"
    ensures r.Err? ==> r.error == ValueError(UnknownShapeName)
    ensures r.Ok? ==> && r.value.xy == shape.xy && r.value.fill == shape.color
                      && (r.value.EllipseCall? <==> shape.name == "ellipse")
  {
    if shape.name == "ellipse" then Ok(EllipseCall(shape.xy, shape.color))
    else if shape.name == "rectangle" then Ok(RectangleCall(shape.xy, shape.color))
    else Err(ValueError(UnknownShapeName))
  }

  /** Every shape random_shape produces can be drawn. */
  lemma RandomShapesAreDrawable(sel: Selector, width: int, height: int, d: Draws, raster: Raster)
    requires sel.Valid()
    requires DrawsFit(sel, width, height, d)
    requires RandomShape(sel, width, height, d, raster).Ok?
    ensures DrawShape(RandomShape(sel, width, height, d, raster).value).Ok?
  {
  }

  /** Every shape random_shapes produces can be drawn, and lies in the selector's bounding box. */
  lemma RandomShapesAllDrawable(sel: Selector, width: int, height: int, draws: seq<Draws>, raster: Raster, n: int)
    requires sel.Valid()
    requires |draws| == Max(n, 0)
    requires forall i :: 0 <= i < |draws| ==> DrawsFit(sel, width, height, draws[i])
    requires RandomShapes(sel, width, height, draws, raster, n).Ok?
    ensures var shapes := RandomShapes(sel, width, height, draws, raster, n).value;
            forall i :: 0 <= i < |shapes| ==>
              && DrawShape(shapes[i]).Ok?
              && sel.bbox.x0 <= shapes[i].xy.topLeft.x && shapes[i].xy.bottomRight.x < sel.bbox.x1
              && sel.bbox.y0 <= shapes[i].xy.topLeft.y && shapes[i].xy.bottomRight.y < sel.bbox.y1
  {
    var shapes := RandomShapes(sel, width, height, draws, raster, n).value;
    forall i | 0 <= i < |shapes|
      ensures DrawShape(shapes[i]).Ok?
    {
      RandomShapesAreDrawable(sel, width, height, draws[i], raster);
    }
  }

  /**
   * evolve_shape is inherited from the base class, whose method takes one
   * shape argument; the filter passes the target image and the shape, so the
   * call raises TypeError.
   */
  function EvolveShape(shape: ShapeTuple): (r: Result<ShapeTuple>)
    ensures r == Err(TypeError)
  {
    Err(TypeError)
  }

  // ---- Text form of a shape tuple ----

  /** `str` of the xy list, `[(x0, y0), (x1, y1)]`: it has no ':' and reads back as the same corners. */
  function CornersToStr(xy: Corners): (text: string)
    ensures ':' !in text
    ensures ParseCorners(text) == Some(xy)
  {
    var a, b, c, d := xy.topLeft.x, xy.topLeft.y, xy.bottomRight.x, xy.bottomRight.y;
    var s4 := ")]";
    var s3 := ", " + (Decimal.IntToStr(d) + s4);
    var s2 := "), (" + (Decimal.IntToStr(c) + s3);
    var s1 := ", " + (Decimal.IntToStr(b) + s2);
    var text := "[(" + (Decimal.IntToStr(a) + s1);
    assert ':' !in text by {
      NoColonInInt(a);
      NoColonInInt(b);
      NoColonInInt(c);
      NoColonInInt(d);
      assert ':' !in "[(" && ':' !in ", " && ':' !in "), (" && ':' !in ")]";
      assert ':' !in s3;
    }
    assert ParseCorners(text) == Some(xy) by {
      ExpectLiteral("[(", Decimal.IntToStr(a) + s1);
      IntThen(a, ", ", Decimal.IntToStr(b) + s2);
      IntThen(b, "), (", Decimal.IntToStr(c) + s3);
      IntThen(c, ", ", Decimal.IntToStr(d) + s4);
      IntThen(d, ")]", "");
      assert ")]" + "" == ")]";
    }
    text
  }

  /** `str` of the colour tuple, `(r, g, b)`: it has no ':' and reads back as the same colour. */
  function ColorToStr(color: Color): (text: string)
    ensures ':' !in text
    ensures ParseColor(text) == Some(color)
  {
    var a, b, c := color.r, color.g, color.b;
    var s2 := ", " + (Decimal.IntToStr(c) + ")");
    var s1 := ", " + (Decimal.IntToStr(b) + s2);
    var text := "(" + (Decimal.IntToStr(a) + s1);
    assert ':' !in text by {
      NoColonInInt(a);
      NoColonInInt(b);
      NoColonInInt(c);
      assert ':' !in "(" && ':' !in ", " && ':' !in ")";
    }
    assert ParseColor(text) == Some(color) by {
      ExpectLiteral("(", Decimal.IntToStr(a) + s1);
      IntThen(a, ", ", Decimal.IntToStr(b) + s2);
      IntThen(b, ", ", Decimal.IntToStr(c) + ")");
      IntThen(c, ")", "");
      assert ")" + "" == ")";
    }
    text
  }

  /**
   * shape_tuple_to_str: the three fields joined by ':'. For a name without ':'
   * the text splits back into exactly those fields, and shape_str_to_tuple
   * reads it back as the same shape.
   */
  function ShapeTupleToStr(shape: ShapeTuple): (text: string)
    ensures ':' !in shape.name ==>
              Split(text, ':') == [shape.name, CornersToStr(shape.xy), ColorToStr(shape.color)]
    ensures ':' !in shape.name ==> ShapeStrToTuple(text) == Ok(shape)
  {
    var text := shape.name + (":" + (CornersToStr(shape.xy) + (":" + ColorToStr(shape.color))));
    assert ':' !in shape.name ==> Split(text, ':') == [shape.name, CornersToStr(shape.xy), ColorToStr(shape.color)] by {
      if ':' !in shape.name {
        SplitThreeFields(shape.name, CornersToStr(shape.xy), ColorToStr(shape.color), ':');
      }
    }
    text
  }

  /** The index of the first occurrence of c in s. */
  function IndexOf(s: string, c: char): (i: nat)
    requires c in s
    ensures i < |s| && s[i] == c && c !in s[..i]
    ensures forall j :: 0 <= j < i ==> s[j] != c
  {
    if s[0] == c then 0 else
      assert s == [s[0]] + s[1..];
      var j := IndexOf(s[1..], c);
      assert s[..j + 1] == [s[0]] + s[1..][..j];
      j + 1
  }

  /** Python's str.split(sep) for a one-character separator. */
  function Split(s: string, sep: char): (parts: seq<string>)
    ensures |parts| > 0
    ensures forall i :: 0 <= i < |parts| ==> sep !in parts[i]
    decreases |s|
  {
    if sep !in s then [s]
    else
      var i := IndexOf(s, sep);
      [s[..i]] + Split(s[i + 1..], sep)
  }

  /** Removes the literal prefix lit from s, if s starts with it. */
  function Expect(lit: string, s: string): (r: Option<string>)
    ensures r.Some? <==> lit <= s
    ensures r.Some? ==> s == lit + r.value
  {
    if lit <= s then Some(s[|lit|..]) else None
  }

  /** Reads the text CornersToStr writes, and nothing more; the round trip is stated by `CornersToStr`. */
  function ParseCorners(s: string): Option<Corners> {
    var r0 :- Expect("[(", s);
    var a :- Decimal.ParseInt(r0);
    var r1 :- Expect(", ", a.1);
    var b :- Decimal.ParseInt(r1);
    var r2 :- Expect("), (", b.1);
    var c :- Decimal.ParseInt(r2);
    var r3 :- Expect(", ", c.1);
    var d :- Decimal.ParseInt(r3);
    var r4 :- Expect(")]", d.1);
    if r4 == "" then Some(Corners(Point(a.0, b.0), Point(c.0, d.0))) else None
  }

  /** Reads the text ColorToStr writes, and nothing more: three channel values in 0..255; the round trip is stated by `ColorToStr`. */
  function ParseColor(s: string): Option<Color> {
    var r0 :- Expect("(", s);
    var a :- Decimal.ParseInt(r0);
    var r1 :- Expect(", ", a.1);
    var b :- Decimal.ParseInt(r1);
    var r2 :- Expect(", ", b.1);
    var c :- Decimal.ParseInt(r2);
    var r3 :- Expect(")", c.1);
    if r3 == "" && 0 <= a.0 < 256 && 0 <= b.0 < 256 && 0 <= c.0 < 256 then Some(Color(a.0, b.0, c.0)) else None
  }

  function OptionToResult<T>(o: Option<T>): Result<T> {
    match o
    case Some(v) => Ok(v)
    case None => Err(UnsupportedText)
  }

  /**
   * shape_str_to_tuple: split on ':' into exactly three fields (otherwise the
   * unpacking raises ValueError), then read the box and the colour. Only the
   * text shape_tuple_to_str writes is read; `eval` of anything else is not modelled.
   */
  function ShapeStrToTuple(text: string): (r: Result<ShapeTuple>)
    ensures |Split(text, ':')| != 3 ==> r == Err(ValueError(WrongFieldCount))
    ensures r.Ok? ==> r.value.name == Split(text, ':')[0] && ':' !in r.value.name
  {
    var parts := Split(text, ':');
    if |parts| != 3 then Err(ValueError(WrongFieldCount))
    else
      var xy :- OptionToResult(ParseCorners(parts[1]));
      var color :- OptionToResult(ParseColor(parts[2]));
      Ok(ShapeTuple(parts[0], xy, color))
  }

  // ---- Lemmas for the text form ----

  lemma ExpectLiteral(lit: string, rest: string)
    ensures Expect(lit, lit + rest) == Some(rest)
  {
    assert lit <= lit + rest;
    assert (lit + rest)[|lit|..] == rest;
  }

  /** Text after a number that starts with punctuation stops the number. */
  lemma IntThen(n: int, lit: string, rest: string)
    requires |lit| > 0 && !Decimal.IsDigit(lit[0])
    ensures Decimal.ParseInt(Decimal.IntToStr(n) + (lit + rest)) == Some((n, lit + rest))
    ensures Expect(lit, lit + rest) == Some(rest)
  {
    Decimal.ParseIntToStr(n, lit + rest);
    ExpectLiteral(lit, rest);
  }

  /** The first separator in a + [sep] + rest is the one after a, when a has none. */
  lemma FirstSeparator(a: string, rest: string, sep: char)
    requires sep !in a
    ensures sep in a + ([sep] + rest) && IndexOf(a + ([sep] + rest), sep) == |a|
  {
    var s := a + ([sep] + rest);
    assert s[|a|] == sep;
    var i := IndexOf(s, sep);
    assert forall j :: 0 <= j < |a| ==> s[j] == a[j] != sep;
  }

  /** Splitting a ':'-free field followed by ':' yields that field first. */
  lemma {:induction false} SplitCons(a: string, rest: string, sep: char)
    requires sep !in a
    ensures Split(a + ([sep] + rest), sep) == [a] + Split(rest, sep)
  {
    var s := a + ([sep] + rest);
    FirstSeparator(a, rest, sep);
    assert s[..|a|] == a;
    assert s[|a| + 1..] == rest;
  }

  /** Python's sep.join(parts). */
  function Join(parts: seq<string>, sep: char): string
    requires |parts| > 0
  {
    if |parts| == 1 then parts[0] else parts[0] + [sep] + Join(parts[1..], sep)
  }

  /** Split loses nothing: joining its fields with the separator gives the text back. */
  lemma {:induction false} SplitJoin(s: string, sep: char)
    ensures Join(Split(s, sep), sep) == s
    decreases |s|
  {
    if sep in s {
      var i := IndexOf(s, sep);
      SplitJoin(s[i + 1..], sep);
      var parts := Split(s, sep);
      assert parts[1..] == Split(s[i + 1..], sep);
      assert s == s[..i] + [sep] + s[i + 1..];
    }
  }

  lemma {:induction false} SplitThreeFields(a: string, b: string, c: string, sep: char)
    requires sep !in a && sep !in b && sep !in c
    ensures Split(a + ([sep] + (b + ([sep] + c))), sep) == [a, b, c]
  {
    var tail := b + ([sep] + c);
    SplitTwoFields(b, c, sep);
    var rest := Split(tail, sep);
    assert rest == [b, c];
    SplitCons(a, tail, sep);
    assert Split(a + ([sep] + tail), sep) == [a] + rest;
  }

  lemma {:induction false} SplitTwoFields(b: string, c: string, sep: char)
    requires sep !in b && sep !in c
    ensures Split(b + ([sep] + c), sep) == [b, c]
  {
    assert Split(c, sep) == [c];
    SplitCons(b, c, sep);
  }

  lemma NoColonInInt(n: int)
    ensures ':' !in Decimal.IntToStr(n)
  {
    var s := Decimal.IntToStr(n);
    assert forall i :: 0 <= i < |s| ==> s[i] != ':';
  }

  /** Every shape random_shape produces survives the text round trip. */
  lemma RandomShapeTextRoundTrip(sel: Selector, width: int, height: int, d: Draws, raster: Raster)
    requires sel.Valid()
    requires DrawsFit(sel, width, height, d)
    requires RandomShape(sel, width, height, d, raster).Ok?
    ensures var shape := RandomShape(sel, width, height, d, raster).value;
            ShapeStrToTuple(ShapeTupleToStr(shape)) == Ok(shape)
  {
    var shape := RandomShape(sel, width, height, d, raster).value;
    assert ':' !in shape.name;
  }
}

=== FILE: shapes_filter.dfy ===
/**
 * The approximation filter: rounds of random shape generation, ranking by
 * difference score and evolution, each round committing one shape to the
 * canvas until the round budget is spent or the canvas is similar enough to
 * the target. Drawing into an image, the similarity measure and the target's
 * average colour are parameters.
 */
module ShapesFilter {
  import opened Outcomes
  import opened Numbers
  import opened Geometry
  import CU = ColorUtils
  import SG = ShapeGenerator
  import opened TupleOrder

  /** The two shape selector classes the program defines. */
  datatype SelectorClass = BaseSelectorClass | RandomShapeSelectorClass

  /** What the filter run leaves behind: the committed shapes and the final canvas. */
  datatype FilterRun = FilterRun(shapes: seq<SG.ShapeTuple>, canvas: CU.Image)

  /** The error the configured class's draw_shape raises for a shape it cannot draw. */
  function DrawError(cls: SelectorClass): PyError {
    if cls.RandomShapeSelectorClass? then ValueError(UnknownShapeName) else NotImplementedError
  }

  /** `shape_selector_class.draw_shape`: the base class's static method raises NotImplementedError. */
  function DrawWith(cls: SelectorClass, shape: SG.ShapeTuple): (r: Result<SG.DrawCall>)
    ensures r.Err? ==> r.error == DrawError(cls)
    ensures cls.RandomShapeSelectorClass? ==> r == SG.DrawShape(shape)
  {
    if cls.RandomShapeSelectorClass? then SG.DrawShape(shape) else Err(NotImplementedError)
  }

  /** Drawing into an image (ImageDraw on a copy of it) never changes the image's size. */
  ghost predicate PaintKeepsSize(paint: (CU.Image, SG.DrawCall) -> CU.Image) {
    forall img: CU.Image, call: SG.DrawCall :: img.Valid() ==> CU.SameSize(paint(img, call), img)
  }

  /**
   * _init_shape_selector: for the random shape selector, a bounding box 100
   * pixels beyond the image on every side, min_size 25 and max_size
   * min(1000, width, height); any other class raises RuntimeError.
   */
  function InitShapeSelector(cls: SelectorClass, width: nat, height: nat): (r: Result<SG.Selector>)
    ensures r.Ok? <==> cls.RandomShapeSelectorClass? && width > 25 && height > 25
    ensures cls.BaseSelectorClass? ==> r == Err(RuntimeError)
    ensures cls.RandomShapeSelectorClass? && (width <= 25 || height <= 25) ==> r == Err(ValueError(MinNotBelowMax))
    ensures r.Ok? ==> && r.value.Valid()
                      && r.value.bbox == SG.Box(-100, -100, width + 100, height + 100)
                      && r.value.minSize == 25 && r.value.maxSize == Min(1000, Min(width, height))
  {
    if cls.RandomShapeSelectorClass? then
      SG.NewSelector(SG.PointList([[-100, -100], [width + 100, height + 100]]), 25, Min(1000, Min(width, height)))
    else
      Err(RuntimeError)
  }

  /**
   * With the filter's selector, random_shape fails exactly on images at most
   * 50 pixels wide or high: the anchor range is [25, extent - 25), and the
   * backward range can never be empty because the box edge is at -100.
   */
  lemma FilterSelectorShapes(width: nat, height: nat, d: SG.Draws, raster: SG.Raster)
    requires width > 25 && height > 25
    requires SG.DrawsFit(InitShapeSelector(RandomShapeSelectorClass, width, height).value, width, height, d)
    ensures SG.RandomShape(InitShapeSelector(RandomShapeSelectorClass, width, height).value, width, height, d, raster).Ok?
        <==> width > 50 && height > 50
  {
  }

  /** Drawing each shape, in order, on top of base; a shape the class cannot draw raises. */
  function Replay(cls: SelectorClass, base: CU.Image, shapes: seq<SG.ShapeTuple>, paint: (CU.Image, SG.DrawCall) -> CU.Image): (r: Result<CU.Image>)
    requires base.Valid() && PaintKeepsSize(paint)
    ensures r.Ok? ==> CU.SameSize(r.value, base)
  {
    if shapes == [] then Ok(base)
    else
      var canvas :- Replay(cls, base, shapes[..|shapes| - 1], paint);
      var call :- DrawWith(cls, shapes[|shapes| - 1]);
      Ok(paint(canvas, call))
  }

  /** Dropping the last element of the prefix of length i + 1 leaves the prefix of length i. */
  lemma PrefixOfPrefix<T>(s: seq<T>, i: nat)
    requires i < |s|
    ensures var b := s[..i + 1]; |b| == i + 1 && b[..|b| - 1] == s[..i] && b[|b| - 1] == s[i]
  {
    assert s[..i + 1][..i] == s[..i];
  }

  /** Appending an element keeps every prefix of the list it extends. */
  lemma PrefixesOfExtension<T>(s: seq<T>, x: T)
    ensures (s + [x])[..|s|] == s
    ensures forall k :: 0 <= k <= |s| ==> (s + [x])[..k] == s[..k]
  {
    forall k | 0 <= k <= |s|
      ensures (s + [x])[..k] == s[..k]
    {
      assert (s + [x])[..k] == s[..k];
    }
  }

  class ApproximationFilter {
    const selectorClass: SelectorClass
    const numShapes: int
    const maxRounds: int
    const similarityThreshold: real
    const numIterations: int
    const numTopShapes: int

    /** __init__ stores the parameters as given; it checks none of them. */
    constructor (selectorClass: SelectorClass, numShapes: int, maxRounds: int, similarityThreshold: real,
                 numIterations: int, numTopShapes: int)
      ensures this.selectorClass == selectorClass && this.numShapes == numShapes && this.maxRounds == maxRounds
      ensures this.similarityThreshold == similarityThreshold && this.numIterations == numIterations
      ensures this.numTopShapes == numTopShapes
    {
      this.selectorClass := selectorClass;
      this.numShapes := numShapes;
      this.maxRounds := maxRounds;
      this.similarityThreshold := similarityThreshold;
      this.numIterations := numIterations;
      this.numTopShapes := numTopShapes;
    }

    /** __init__ with its default arguments. */
    constructor WithDefaults(selectorClass: SelectorClass)
      ensures this.selectorClass == selectorClass && numShapes == 200 && maxRounds == 500
      ensures similarityThreshold == 0.1 && numIterations == 10 && numTopShapes == 20
    {
      this.selectorClass := selectorClass;
      numShapes := 200;
      maxRounds := 500;
      similarityThreshold := 0.1;
      numIterations := 10;
      numTopShapes := 20;
    }

    // ---- Ranking ----

    /** The difference score of the canvas with the shape drawn on a copy of it. */
    function ScoreOf(target: CU.Image, canvas: CU.Image, shape: SG.ShapeTuple, paint: (CU.Image, SG.DrawCall) -> CU.Image): (r: Result<nat>)
      requires CU.SameSize(canvas, target) && PaintKeepsSize(paint)
      ensures r.Ok? <==> DrawWith(selectorClass, shape).Ok?
      ensures r.Err? ==> r.error == DrawError(selectorClass)
    {
      var call :- DrawWith(selectorClass, shape);
      Ok(CU.DifferenceScore(paint(canvas, call), target))
    }

    /** The (score, shape) list _rank_shapes builds, in the order of shapes; the first undrawable shape raises. */
    function ScoreAll(target: CU.Image, canvas: CU.Image, shapes: seq<SG.ShapeTuple>, paint: (CU.Image, SG.DrawCall) -> CU.Image): (r: Result<seq<Scored>>)
      requires CU.SameSize(canvas, target) && PaintKeepsSize(paint)
      ensures r.Ok? <==> forall i :: 0 <= i < |shapes| ==> DrawWith(selectorClass, shapes[i]).Ok?
      ensures r.Err? ==> r.error == DrawError(selectorClass)
      ensures r.Ok? ==> |r.value| == |shapes|
    {
      if shapes == [] then Ok([])
      else
        var init :- ScoreAll(target, canvas, shapes[..|shapes| - 1], paint);
        var score :- ScoreOf(target, canvas, shapes[|shapes| - 1], paint);
        assert forall i :: 0 <= i < |shapes| - 1 ==> shapes[..|shapes| - 1][i] == shapes[i];
        Ok(init + [Scored(score, shapes[|shapes| - 1])])
    }

    /** Pair i of ScoreAll's list holds shape i and that shape's score. */
    lemma {:induction false} ScoreAllAt(target: CU.Image, canvas: CU.Image, shapes: seq<SG.ShapeTuple>, paint: (CU.Image, SG.DrawCall) -> CU.Image, i: nat)
      requires CU.SameSize(canvas, target) && PaintKeepsSize(paint)
      requires ScoreAll(target, canvas, shapes, paint).Ok? && i < |shapes|
      ensures ScoreAll(target, canvas, shapes, paint).value[i].shape == shapes[i]
      ensures Rated(target, canvas, paint, ScoreAll(target, canvas, shapes, paint).value[i])
      decreases |shapes|
    {
      var init := shapes[..|shapes| - 1];
      var scored := ScoreAll(target, canvas, init, paint).value;
      var last := ScoreOf(target, canvas, shapes[|shapes| - 1], paint).value;
      assert ScoreAll(target, canvas, shapes, paint).value == scored + [Scored(last, shapes[|shapes| - 1])];
      if i < |shapes| - 1 {
        ScoreAllAt(target, canvas, init, paint, i);
        assert init[i] == shapes[i];
      }
    }

    /** ScoreAll keeps the shapes in order, and every pair it builds is rated. */
    lemma ScoreAllRated(target: CU.Image, canvas: CU.Image, shapes: seq<SG.ShapeTuple>, paint: (CU.Image, SG.DrawCall) -> CU.Image)
      requires CU.SameSize(canvas, target) && PaintKeepsSize(paint)
      requires ScoreAll(target, canvas, shapes, paint).Ok?
      ensures Shapes(ScoreAll(target, canvas, shapes, paint).value) == shapes
      ensures forall i :: 0 <= i < |shapes| ==> Rated(target, canvas, paint, ScoreAll(target, canvas, shapes, paint).value[i])
    {
      var scored := ScoreAll(target, canvas, shapes, paint).value;
      forall i | 0 <= i < |shapes|
        ensures scored[i].shape == shapes[i] && Rated(target, canvas, paint, scored[i])
      {
        ScoreAllAt(target, canvas, shapes, paint, i);
      }
    }

    /** The result of _rank_shapes: the shapes of the sorted (score, shape) list. */
    function Ranking(target: CU.Image, canvas: CU.Image, shapes: seq<SG.ShapeTuple>, paint: (CU.Image, SG.DrawCall) -> CU.Image): (r: Result<seq<SG.ShapeTuple>>)
      requires CU.SameSize(canvas, target) && PaintKeepsSize(paint)
      ensures r.Ok? <==> forall i :: 0 <= i < |shapes| ==> DrawWith(selectorClass, shapes[i]).Ok?
      ensures r.Err? ==> r.error == DrawError(selectorClass)
      ensures r.Ok? ==> |r.value| == |shapes|
    {
      var scored :- ScoreAll(target, canvas, shapes, paint);
      Ok(Shapes(Sort(scored)))
    }

    /** Shape s ranks no later than shape t: a lower score, or an equal score and s <= t as tuples. */
    predicate RanksBefore(target: CU.Image, canvas: CU.Image, paint: (CU.Image, SG.DrawCall) -> CU.Image, s: SG.ShapeTuple, t: SG.ShapeTuple)
      requires CU.SameSize(canvas, target) && PaintKeepsSize(paint)
      requires DrawWith(selectorClass, s).Ok? && DrawWith(selectorClass, t).Ok?
    {
      var a, b := ScoreOf(target, canvas, s, paint).value, ScoreOf(target, canvas, t, paint).value;
      a < b || (a == b && (s == t || ShapeLess(s, t)))
    }

    /** p's shape can be drawn and p's score is that shape's difference score. */
    predicate Rated(target: CU.Image, canvas: CU.Image, paint: (CU.Image, SG.DrawCall) -> CU.Image, p: Scored)
      requires CU.SameSize(canvas, target) && PaintKeepsSize(paint)
    {
      DrawWith(selectorClass, p.shape).Ok? && ScoreOf(target, canvas, p.shape, paint) == Ok(p.score)
    }

    /**
     * The ranking is a permutation of the shapes, ordered by score with ties
     * broken by tuple order; and it is the only list with both properties, so
     * it is what Python's sort yields.
     */
    lemma RankingIsSortedPermutation(target: CU.Image, canvas: CU.Image, shapes: seq<SG.ShapeTuple>, paint: (CU.Image, SG.DrawCall) -> CU.Image)
      requires CU.SameSize(canvas, target) && PaintKeepsSize(paint)
      requires Ranking(target, canvas, shapes, paint).Ok?
      ensures var ranked := Ranking(target, canvas, shapes, paint).value;
              && multiset(ranked) == multiset(shapes)
              && (forall i :: 0 <= i < |ranked| ==> DrawWith(selectorClass, ranked[i]).Ok?)
              && forall i, j :: 0 <= i < j < |ranked| ==> RanksBefore(target, canvas, paint, ranked[i], ranked[j])
    {
      var scored := ScoreAll(target, canvas, shapes, paint).value;
      ScoreAllRated(target, canvas, shapes, paint);
      ShapesOfSort(scored);
      SortedEntriesRated(target, canvas, paint, scored);
      SortSorted(scored);
      SortedRatedRanks(target, canvas, paint, Sort(scored));
    }

    /** Sorting keeps every entry's score that of its shape. */
    lemma SortedEntriesRated(target: CU.Image, canvas: CU.Image, paint: (CU.Image, SG.DrawCall) -> CU.Image, scored: seq<Scored>)
      requires CU.SameSize(canvas, target) && PaintKeepsSize(paint)
      requires forall i :: 0 <= i < |scored| ==> Rated(target, canvas, paint, scored[i])
      ensures forall i :: 0 <= i < |Sort(scored)| ==> Rated(target, canvas, paint, Sort(scored)[i])
    {
      forall i | 0 <= i < |Sort(scored)|
        ensures Rated(target, canvas, paint, Sort(scored)[i])
      {
        var k := SortSource(scored, i);
      }
    }

    /** In a sorted list of rated pairs, the shapes come in ranking order. */
    lemma SortedRatedRanks(target: CU.Image, canvas: CU.Image, paint: (CU.Image, SG.DrawCall) -> CU.Image, sorted: seq<Scored>)
      requires CU.SameSize(canvas, target) && PaintKeepsSize(paint)
      requires forall i :: 0 <= i < |sorted| ==> Rated(target, canvas, paint, sorted[i])
      requires Sorted(sorted)
      ensures forall i :: 0 <= i < |sorted| ==> DrawWith(selectorClass, Shapes(sorted)[i]).Ok?
      ensures forall i, j :: 0 <= i < j < |sorted| ==> RanksBefore(target, canvas, paint, Shapes(sorted)[i], Shapes(sorted)[j])
    {
      forall i, j | 0 <= i < j < |sorted|
        ensures RanksBefore(target, canvas, paint, Shapes(sorted)[i], Shapes(sorted)[j])
      {
        assert Rated(target, canvas, paint, sorted[i]) && Rated(target, canvas, paint, sorted[j]);
        assert PairLe(sorted[i], sorted[j]);
      }
    }

    /**
     * _rank_shapes: scores every shape drawn on a copy of the canvas (the
     * canvas itself is a value and stays as it is), sorts the pairs and keeps
     * the shapes.
     */
    method RankShapes(target: CU.Image, canvas: CU.Image, shapes: seq<SG.ShapeTuple>, paint: (CU.Image, SG.DrawCall) -> CU.Image)
      returns (r: Result<seq<SG.ShapeTuple>>)
      requires CU.SameSize(canvas, target) && PaintKeepsSize(paint)
      ensures r == Ranking(target, canvas, shapes, paint)
      ensures r.Ok? <==> forall i :: 0 <= i < |shapes| ==> DrawWith(selectorClass, shapes[i]).Ok?
      ensures r.Err? ==> r.error == DrawError(selectorClass)
    {
      var scored: seq<Scored> := [];
      var i := 0;
      while i < |shapes|
        invariant 0 <= i <= |shapes|
        invariant ScoreAll(target, canvas, shapes[..i], paint) == Ok(scored)
      {
        var call := DrawWith(selectorClass, shapes[i]);
        if call.Err? {
          assert !DrawWith(selectorClass, shapes[i]).Ok?;
          return Err(call.error);
        }
        var withShape := paint(canvas, call.value);
        var score := CU.DifferenceScore(withShape, target);
        ScoreAllExtend(target, canvas, shapes, i, paint);
        scored := scored + [Scored(score, shapes[i])];
        i := i + 1;
      }
      assert shapes[..i] == shapes;
      r := Ok(Shapes(Sort(scored)));
    }

    /** One more shape: ScoreAll grows by that shape's pair, or fails with its error. */
    lemma ScoreAllExtend(target: CU.Image, canvas: CU.Image, shapes: seq<SG.ShapeTuple>, i: nat, paint: (CU.Image, SG.DrawCall) -> CU.Image)
      requires CU.SameSize(canvas, target) && PaintKeepsSize(paint)
      requires i < |shapes| && ScoreAll(target, canvas, shapes[..i], paint).Ok?
      requires DrawWith(selectorClass, shapes[i]).Ok?
      ensures ScoreAll(target, canvas, shapes[..i + 1], paint)
           == Ok(ScoreAll(target, canvas, shapes[..i], paint).value
                 + [Scored(CU.DifferenceScore(paint(canvas, DrawWith(selectorClass, shapes[i]).value), target), shapes[i])])
    {
      PrefixOfPrefix(shapes, i);
      assert ScoreOf(target, canvas, shapes[i], paint)
          == Ok(CU.DifferenceScore(paint(canvas, DrawWith(selectorClass, shapes[i]).value), target));
    }

    // ---- Iterations ----

    /** shapes[:num_top_shapes], with Python's meaning for a negative bound. */
    function Survivors(shapes: seq<SG.ShapeTuple>): (top: seq<SG.ShapeTuple>)
      ensures top <= shapes
      ensures numTopShapes >= 0 ==> |top| == Min(numTopShapes, |shapes|)
      ensures numTopShapes < 0 ==> |top| == Max(0, |shapes| + numTopShapes)
    {
      if numTopShapes >= 0 then shapes[..Min(numTopShapes, |shapes|)]
      else shapes[..Max(0, |shapes| + numTopShapes)]
    }

    /** The shape the k-th new shape is evolved from: the survivors taken round-robin. */
    function Parent(top: seq<SG.ShapeTuple>, k: nat): SG.ShapeTuple
      requires |top| > 0
    {
      top[k % |top|]
    }

    /** The first n evolved shapes; the first failing evolve_shape call raises. */
    function EvolveCycle(top: seq<SG.ShapeTuple>, evolve: SG.ShapeTuple -> Result<SG.ShapeTuple>, n: nat): (r: Result<seq<SG.ShapeTuple>>)
      requires |top| > 0
      ensures r.Ok? <==> forall k :: 0 <= k < n ==> evolve(Parent(top, k)).Ok?
      ensures r.Ok? ==> && |r.value| == n
                        && forall k :: 0 <= k < n ==> r.value[k] == evolve(Parent(top, k)).value
    {
      if n == 0 then Ok([])
      else
        var init :- EvolveCycle(top, evolve, n - 1);
        var child :- evolve(Parent(top, n - 1));
        Ok(init + [child])
    }

    lemma {:induction false} EvolveCycleStopsAtError(top: seq<SG.ShapeTuple>, evolve: SG.ShapeTuple -> Result<SG.ShapeTuple>, k: nat, n: nat)
      requires |top| > 0 && k <= n
      requires EvolveCycle(top, evolve, k).Err?
      ensures EvolveCycle(top, evolve, n) == EvolveCycle(top, evolve, k)
      decreases n
    {
      if n > k {
        EvolveCycleStopsAtError(top, evolve, k, n - 1);
      }
    }

    /** The result of _run_iteration on a ranked list; `IterationShapes` states what it yields. */
    function Iteration(shapes: seq<SG.ShapeTuple>, evolve: SG.ShapeTuple -> Result<SG.ShapeTuple>): Result<seq<SG.ShapeTuple>> {
      var top := Survivors(shapes);
      if numShapes <= 0 then Ok([])
      else if |top| == 0 then Err(ZeroDivisionError)
      else EvolveCycle(top, evolve, numShapes)
    }

    /**
     * _run_iteration yields exactly num_shapes new shapes (none when
     * num_shapes is not positive), the k-th evolved from survivor k mod m,
     * where the survivors are the first num_top_shapes of the ranked list;
     * with no survivors the modulo raises ZeroDivisionError, and otherwise it
     * fails exactly when one of the evolve_shape calls does.
     */
    lemma IterationShapes(shapes: seq<SG.ShapeTuple>, evolve: SG.ShapeTuple -> Result<SG.ShapeTuple>)
      ensures var r := Iteration(shapes, evolve);
              && (r.Ok? ==> |r.value| == Max(numShapes, 0))
              && (r.Ok? && numShapes > 0 ==>
                    && |Survivors(shapes)| > 0
                    && forall k :: 0 <= k < numShapes ==> r.value[k] == evolve(Parent(Survivors(shapes), k)).value)
              && (numShapes > 0 && |Survivors(shapes)| == 0 ==> r == Err(ZeroDivisionError))
              && (numShapes > 0 && |Survivors(shapes)| > 0 ==>
                    (r.Ok? <==> forall k :: 0 <= k < numShapes ==> evolve(Parent(Survivors(shapes), k)).Ok?))
    {
    }

    /** _run_iteration: its loop builds exactly the list Iteration describes. */
    method RunIteration(shapes: seq<SG.ShapeTuple>, evolve: SG.ShapeTuple -> Result<SG.ShapeTuple>)
      returns (r: Result<seq<SG.ShapeTuple>>)
      ensures r == Iteration(shapes, evolve)
    {
      var top := Survivors(shapes);
      var next: seq<SG.ShapeTuple> := [];
      var k := 0;
      while k < numShapes
        invariant 0 <= k && (numShapes > 0 ==> k <= numShapes) && (numShapes <= 0 ==> k == 0)
        invariant k == 0 ==> next == []
        invariant k > 0 ==> |top| > 0
        invariant |top| > 0 ==> EvolveCycle(top, evolve, k) == Ok(next)
      {
        if |top| == 0 {
          return Err(ZeroDivisionError);
        }
        var child := evolve(top[k % |top|]);
        if child.Err? {
          EvolveCycleStopsAtError(top, evolve, k + 1, numShapes);
          return Err(child.error);
        }
        next := next + [child.value];
        k := k + 1;
      }
      r := Ok(next);
    }

    // ---- Rounds ----

    /** The draws of one round fit the ranges of the filter's selector, one set per shape. */
    predicate RoundDrawsFit(width: nat, height: nat, draws: seq<SG.Draws>) {
      && |draws| == Max(numShapes, 0)
      && (InitShapeSelector(selectorClass, width, height).Ok? ==>
            forall i :: 0 <= i < |draws| ==>
              SG.DrawsFit(InitShapeSelector(selectorClass, width, height).value, width, height, draws[i]))
    }

    /**
     * One iteration of a round: rank the population (an error there ends the
     * round) and replace it with the iteration's result; an iteration that
     * raises leaves the population as it was, unranked.
     */
    function Step(target: CU.Image, canvas: CU.Image, previous: seq<SG.ShapeTuple>,
                  evolve: SG.ShapeTuple -> Result<SG.ShapeTuple>, paint: (CU.Image, SG.DrawCall) -> CU.Image): (r: Result<seq<SG.ShapeTuple>>)
      requires CU.SameSize(canvas, target) && PaintKeepsSize(paint)
      ensures r.Err? <==> exists i :: 0 <= i < |previous| && !DrawWith(selectorClass, previous[i]).Ok?
      ensures r.Err? ==> r.error == DrawError(selectorClass)
    {
      var ranked :- Ranking(target, canvas, previous, paint);
      var next := Iteration(ranked, evolve);
      if next.Ok? then Ok(next.value) else Ok(previous)
    }

    /**
     * The population after k more iterations of a round, starting from population;
     * `FixedPointPopulation` and `StubEvolveKeepsPopulation` state what it keeps.
     */
    function Population(target: CU.Image, canvas: CU.Image, population: seq<SG.ShapeTuple>,
                        evolve: SG.ShapeTuple -> Result<SG.ShapeTuple>, paint: (CU.Image, SG.DrawCall) -> CU.Image, k: nat): Result<seq<SG.ShapeTuple>>
      requires CU.SameSize(canvas, target) && PaintKeepsSize(paint)
      decreases k
    {
      if k == 0 then Ok(population)
      else
        var next :- Step(target, canvas, population, evolve, paint);
        Population(target, canvas, next, evolve, paint, k - 1)
    }

    /** One iteration more, given the ranking and what replaced the population: the rest of the round from there. */
    lemma PopulationAfter(target: CU.Image, canvas: CU.Image, population: seq<SG.ShapeTuple>,
                          evolve: SG.ShapeTuple -> Result<SG.ShapeTuple>, paint: (CU.Image, SG.DrawCall) -> CU.Image, k: nat,
                          ranked: seq<SG.ShapeTuple>, next: seq<SG.ShapeTuple>)
      requires CU.SameSize(canvas, target) && PaintKeepsSize(paint) && k > 0
      requires Ranking(target, canvas, population, paint) == Ok(ranked)
      requires Iteration(ranked, evolve).Ok? ==> next == Iteration(ranked, evolve).value
      requires Iteration(ranked, evolve).Err? ==> next == population
      ensures Population(target, canvas, population, evolve, paint, k) == Population(target, canvas, next, evolve, paint, k - 1)
    {
      assert Step(target, canvas, population, evolve, paint) == Ok(next);
    }

    /** A ranking that raises ends the round with its error. */
    lemma PopulationRankingFails(target: CU.Image, canvas: CU.Image, population: seq<SG.ShapeTuple>,
                                 evolve: SG.ShapeTuple -> Result<SG.ShapeTuple>, paint: (CU.Image, SG.DrawCall) -> CU.Image, k: nat)
      requires CU.SameSize(canvas, target) && PaintKeepsSize(paint) && k > 0
      requires Ranking(target, canvas, population, paint).Err?
      ensures Population(target, canvas, population, evolve, paint, k) == Err(Ranking(target, canvas, population, paint).error)
    {
    }

    /**
     * The for loop of _run_round: each iteration ranks the population (a
     * ranking error ends the round) and replaces it with the iteration's new
     * shapes, keeping it when _run_iteration raises.
     */
    method RunIterations(target: CU.Image, canvas: CU.Image, start: seq<SG.ShapeTuple>,
                         evolve: SG.ShapeTuple -> Result<SG.ShapeTuple>, paint: (CU.Image, SG.DrawCall) -> CU.Image, iterations: nat)
      returns (r: Result<seq<SG.ShapeTuple>>)
      requires CU.SameSize(canvas, target) && PaintKeepsSize(paint)
      ensures r == Population(target, canvas, start, evolve, paint, iterations)
    {
      var population := start;
      var left := iterations;
      while left > 0
        invariant Population(target, canvas, start, evolve, paint, iterations)
               == Population(target, canvas, population, evolve, paint, left)
      {
        var ranked := RankShapes(target, canvas, population, paint);
        if ranked.Err? {
          PopulationRankingFails(target, canvas, population, evolve, paint, left);
          return Err(ranked.error);
        }
        var next := RunIteration(ranked.value, evolve);
        var survivors := if next.Ok? then next.value else population;
        PopulationAfter(target, canvas, population, evolve, paint, left, ranked.value, survivors);
        population := survivors;
        left := left - 1;
      }
      r := Ok(population);
    }

    /** The result of _run_round. */
    function Round(target: CU.Image, canvas: CU.Image, draws: seq<SG.Draws>, raster: SG.Raster,
                   evolve: SG.ShapeTuple -> Result<SG.ShapeTuple>, paint: (CU.Image, SG.DrawCall) -> CU.Image): (r: Result<SG.ShapeTuple>)
      requires CU.SameSize(canvas, target) && PaintKeepsSize(paint)
      requires RoundDrawsFit(target.width, target.height, draws)
      ensures selectorClass.BaseSelectorClass? ==> r == Err(RuntimeError)
      ensures InitShapeSelector(selectorClass, target.width, target.height).Err? ==>
                r == Err(InitShapeSelector(selectorClass, target.width, target.height).error)
      ensures var selector := InitShapeSelector(selectorClass, target.width, target.height);
              selector.Ok? && SG.RandomShapes(selector.value, target.width, target.height, draws, raster, numShapes).Err? ==>
                r == Err(ValueError(EmptyRange))
    {
      var selector :- InitShapeSelector(selectorClass, target.width, target.height);
      var start :- SG.RandomShapes(selector, target.width, target.height, draws, raster, numShapes);
      var final :- Population(target, canvas, start, evolve, paint, Max(numIterations, 0));
      if |final| == 0 then Err(IndexError) else Ok(final[0])
    }

    /**
     * _run_round: builds the selector, draws num_shapes random shapes, runs
     * num_iterations iterations (catching any error an iteration raises) and
     * returns element 0 of the last population.
     */
    method RunRound(target: CU.Image, canvas: CU.Image, draws: seq<SG.Draws>, raster: SG.Raster,
                    evolve: SG.ShapeTuple -> Result<SG.ShapeTuple>, paint: (CU.Image, SG.DrawCall) -> CU.Image)
      returns (r: Result<SG.ShapeTuple>)
      requires CU.SameSize(canvas, target) && PaintKeepsSize(paint)
      requires RoundDrawsFit(target.width, target.height, draws)
      ensures r == Round(target, canvas, draws, raster, evolve, paint)
    {
      var selector := InitShapeSelector(selectorClass, target.width, target.height);
      if selector.Err? {
        return Err(selector.error);
      }
      var start := SG.RandomShapes(selector.value, target.width, target.height, draws, raster, numShapes);
      if start.Err? {
        return Err(start.error);
      }
      var last := RunIterations(target, canvas, start.value, evolve, paint, Max(numIterations, 0));
      if last.Err? {
        return Err(last.error);
      }
      var population := last.value;
      if |population| == 0 {
        return Err(IndexError);
      }
      r := Ok(population[0]);
    }

    /** A round with num_shapes not positive has no shape to return: element 0 of [] raises IndexError. */
    lemma RoundWithoutShapesFails(target: CU.Image, canvas: CU.Image, draws: seq<SG.Draws>, raster: SG.Raster,
                                  evolve: SG.ShapeTuple -> Result<SG.ShapeTuple>, paint: (CU.Image, SG.DrawCall) -> CU.Image)
      requires CU.SameSize(canvas, target) && PaintKeepsSize(paint)
      requires RoundDrawsFit(target.width, target.height, draws)
      requires numShapes <= 0 && InitShapeSelector(selectorClass, target.width, target.height).Ok?
      ensures Round(target, canvas, draws, raster, evolve, paint) == Err(IndexError)
    {
      assert Step(target, canvas, [], evolve, paint) == Ok([]);
      FixedPointPopulation(target, canvas, [], evolve, paint, Max(numIterations, 0));
    }

    /**
     * The random shape selector's evolve_shape raises on every call, so every
     * iteration fails and the population stays the one the round started with.
     */
    lemma StubEvolveKeepsPopulation(target: CU.Image, canvas: CU.Image, start: seq<SG.ShapeTuple>,
                                    paint: (CU.Image, SG.DrawCall) -> CU.Image, k: nat)
      requires CU.SameSize(canvas, target) && PaintKeepsSize(paint)
      requires numShapes > 0 || start == []
      requires forall i :: 0 <= i < |start| ==> DrawWith(selectorClass, start[i]).Ok?
      ensures Population(target, canvas, start, SG.EvolveShape, paint, k) == Ok(start)
    {
      StubStepKeepsPopulation(target, canvas, start, paint);
      FixedPointPopulation(target, canvas, start, SG.EvolveShape, paint, k);
    }

    /** A population that one iteration leaves as it is stays so for any number of iterations. */
    lemma {:induction false} FixedPointPopulation(target: CU.Image, canvas: CU.Image, population: seq<SG.ShapeTuple>,
                                                  evolve: SG.ShapeTuple -> Result<SG.ShapeTuple>,
                                                  paint: (CU.Image, SG.DrawCall) -> CU.Image, k: nat)
      requires CU.SameSize(canvas, target) && PaintKeepsSize(paint)
      requires Step(target, canvas, population, evolve, paint) == Ok(population)
      ensures Population(target, canvas, population, evolve, paint, k) == Ok(population)
    {
      if k > 0 {
        FixedPointPopulation(target, canvas, population, evolve, paint, k - 1);
      }
    }

    lemma StubStepKeepsPopulation(target: CU.Image, canvas: CU.Image, start: seq<SG.ShapeTuple>,
                                  paint: (CU.Image, SG.DrawCall) -> CU.Image)
      requires CU.SameSize(canvas, target) && PaintKeepsSize(paint)
      requires numShapes > 0 || start == []
      requires forall i :: 0 <= i < |start| ==> DrawWith(selectorClass, start[i]).Ok?
      ensures Step(target, canvas, start, SG.EvolveShape, paint) == Ok(start)
    {
      var ranked := Ranking(target, canvas, start, paint).value;
      if numShapes > 0 && |Survivors(ranked)| > 0 {
        assert SG.EvolveShape(Parent(Survivors(ranked), 0)).Err?;
      }
    }

    /**
     * Hence a round with the random shape selector returns the first of its
     * random shapes, whatever the scores of the others.
     */
    lemma RoundReturnsFirstRandomShape(target: CU.Image, canvas: CU.Image, draws: seq<SG.Draws>, raster: SG.Raster,
                                       paint: (CU.Image, SG.DrawCall) -> CU.Image)
      requires CU.SameSize(canvas, target) && PaintKeepsSize(paint)
      requires RoundDrawsFit(target.width, target.height, draws)
      requires selectorClass.RandomShapeSelectorClass? && numShapes > 0
      requires target.width > 50 && target.height > 50
      ensures var selector := InitShapeSelector(selectorClass, target.width, target.height).value;
              && SG.RandomShapes(selector, target.width, target.height, draws, raster, numShapes).Ok?
              && Round(target, canvas, draws, raster, SG.EvolveShape, paint)
                 == Ok(SG.RandomShape(selector, target.width, target.height, draws[0], raster).value)
    {
      var selector := InitShapeSelector(selectorClass, target.width, target.height).value;
      forall i | 0 <= i < |draws|
        ensures SG.RandomShape(selector, target.width, target.height, draws[i], raster).Ok?
      {
        FilterSelectorShapes(target.width, target.height, draws[i], raster);
      }
      var start := SG.RandomShapes(selector, target.width, target.height, draws, raster, numShapes).value;
      forall i | 0 <= i < |start|
        ensures DrawWith(selectorClass, start[i]).Ok?
      {
        SG.RandomShapesAreDrawable(selector, target.width, target.height, draws[i], raster);
      }
      StubEvolveKeepsPopulation(target, canvas, start, paint, Max(numIterations, 0));
    }

    // ---- The filter loop ----

    /**
     * The outcome of the loop of run_filter_with_viewer from round |shapes| on,
     * canvas being the canvas those shapes were drawn on: stop once max_rounds
     * rounds have run or the canvas is less than similarity_threshold similar;
     * otherwise run a round, draw its shape, and raise ZeroDivisionError at
     * `i % show_steps` when show_steps is 0.
     */
    function FilterFrom(target: CU.Image, showSteps: int, draws: seq<seq<SG.Draws>>, raster: SG.Raster,
                        paint: (CU.Image, SG.DrawCall) -> CU.Image, similarity: CU.Image -> real,
                        canvas: CU.Image, shapes: seq<SG.ShapeTuple>): (r: Result<FilterRun>)
      requires CU.SameSize(canvas, target) && PaintKeepsSize(paint)
      requires |draws| >= maxRounds
      requires forall k :: 0 <= k < |draws| ==> RoundDrawsFit(target.width, target.height, draws[k])
      ensures r.Ok? ==> shapes <= r.value.shapes && |r.value.shapes| <= Max(maxRounds, |shapes|)
      decreases maxRounds - |shapes|
    {
      var i := |shapes|;
      if i >= maxRounds || similarity(canvas) < similarityThreshold then Ok(FilterRun(shapes, canvas))
      else
        var shape :- Round(target, canvas, draws[i], raster, SG.EvolveShape, paint);
        var call :- DrawWith(selectorClass, shape);
        if showSteps == 0 then Err(ZeroDivisionError)
        else FilterFrom(target, showSteps, draws, raster, paint, similarity, paint(canvas, call), shapes + [shape])
    }

    /**
     * With the random shape selector, at least one shape per round and a
     * non-zero show_steps, the loop never fails on an image larger than 50 x 50,
     * and it commits a shape whenever it runs a round.
     */
    lemma {:induction false} FilterFromSucceeds(target: CU.Image, showSteps: int, draws: seq<seq<SG.Draws>>, raster: SG.Raster,
                                                paint: (CU.Image, SG.DrawCall) -> CU.Image, similarity: CU.Image -> real,
                                                canvas: CU.Image, shapes: seq<SG.ShapeTuple>)
      requires CU.SameSize(canvas, target) && PaintKeepsSize(paint)
      requires |draws| >= maxRounds
      requires forall k :: 0 <= k < |draws| ==> RoundDrawsFit(target.width, target.height, draws[k])
      requires selectorClass.RandomShapeSelectorClass? && numShapes > 0 && showSteps != 0
      requires target.width > 50 && target.height > 50
      ensures FilterFrom(target, showSteps, draws, raster, paint, similarity, canvas, shapes).Ok?
      ensures |shapes| < maxRounds && similarity(canvas) >= similarityThreshold ==>
                |FilterFrom(target, showSteps, draws, raster, paint, similarity, canvas, shapes).value.shapes| > |shapes|
      decreases maxRounds - |shapes|
    {
      var i := |shapes|;
      if i < maxRounds && similarity(canvas) >= similarityThreshold {
        var selector := InitShapeSelector(selectorClass, target.width, target.height).value;
        RoundReturnsFirstRandomShape(target, canvas, draws[i], raster, paint);
        SG.RandomShapesAreDrawable(selector, target.width, target.height, draws[i][0], raster);
        var shape := Round(target, canvas, draws[i], raster, SG.EvolveShape, paint).value;
        var call := DrawWith(selectorClass, shape).value;
        FilterFromSucceeds(target, showSteps, draws, raster, paint, similarity, paint(canvas, call), shapes + [shape]);
      }
    }

    /**
     * Every recorded shape came from its own round, run on the canvas the
     * shapes before it were drawn on, while that canvas was still similar enough.
     */
    predicate RoundsRecorded(target: CU.Image, base: CU.Image, shapes: seq<SG.ShapeTuple>, draws: seq<seq<SG.Draws>>,
                             raster: SG.Raster, paint: (CU.Image, SG.DrawCall) -> CU.Image, similarity: CU.Image -> real)
      requires CU.SameSize(base, target) && PaintKeepsSize(paint) && |shapes| <= |draws|
      requires forall k :: 0 <= k < |draws| ==> RoundDrawsFit(target.width, target.height, draws[k])
    {
      forall k :: 0 <= k < |shapes| ==>
        && Replay(selectorClass, base, shapes[..k], paint).Ok?
        && similarity(Replay(selectorClass, base, shapes[..k], paint).value) >= similarityThreshold
        && Round(target, Replay(selectorClass, base, shapes[..k], paint).value, draws[k], raster,
                 SG.EvolveShape, paint) == Ok(shapes[k])
    }

    /** One more round, run on the current canvas, extends the record by its shape. */
    lemma RoundsRecordedExtend(target: CU.Image, base: CU.Image, shapes: seq<SG.ShapeTuple>, draws: seq<seq<SG.Draws>>,
                               raster: SG.Raster, paint: (CU.Image, SG.DrawCall) -> CU.Image, similarity: CU.Image -> real,
                               canvas: CU.Image, shape: SG.ShapeTuple)
      requires CU.SameSize(base, target) && PaintKeepsSize(paint) && |shapes| < |draws|
      requires forall k :: 0 <= k < |draws| ==> RoundDrawsFit(target.width, target.height, draws[k])
      requires RoundsRecorded(target, base, shapes, draws, raster, paint, similarity)
      requires Replay(selectorClass, base, shapes, paint) == Ok(canvas)
      requires similarity(canvas) >= similarityThreshold
      requires Round(target, canvas, draws[|shapes|], raster, SG.EvolveShape, paint) == Ok(shape)
      ensures RoundsRecorded(target, base, shapes + [shape], draws, raster, paint, similarity)
    {
      PrefixesOfExtension(shapes, shape);
    }

    /**
     * A successful run from canvas, the base with shapes drawn on it, ends on
     * the base with all its shapes drawn, every shape the result of its own
     * round, and stops early only once the canvas is no longer similar enough.
     */
    lemma {:induction false} FilterFromRecords(target: CU.Image, showSteps: int, draws: seq<seq<SG.Draws>>, raster: SG.Raster,
                                               paint: (CU.Image, SG.DrawCall) -> CU.Image, similarity: CU.Image -> real,
                                               base: CU.Image, canvas: CU.Image, shapes: seq<SG.ShapeTuple>)
      requires CU.SameSize(base, target) && PaintKeepsSize(paint)
      requires |draws| >= maxRounds && |shapes| <= |draws|
      requires forall k :: 0 <= k < |draws| ==> RoundDrawsFit(target.width, target.height, draws[k])
      requires Replay(selectorClass, base, shapes, paint) == Ok(canvas)
      requires RoundsRecorded(target, base, shapes, draws, raster, paint, similarity)
      ensures var r := FilterFrom(target, showSteps, draws, raster, paint, similarity, canvas, shapes);
              r.Ok? ==> && Replay(selectorClass, base, r.value.shapes, paint) == Ok(r.value.canvas)
                        && |r.value.shapes| <= |draws|
                        && RoundsRecorded(target, base, r.value.shapes, draws, raster, paint, similarity)
                        && (|r.value.shapes| < maxRounds ==> similarity(r.value.canvas) < similarityThreshold)
      decreases maxRounds - |shapes|
    {
      var i := |shapes|;
      if i < maxRounds && similarity(canvas) >= similarityThreshold {
        var shape := Round(target, canvas, draws[i], raster, SG.EvolveShape, paint);
        if shape.Ok? {
          var call := DrawWith(selectorClass, shape.value);
          if call.Ok? && showSteps != 0 {
            var next := shapes + [shape.value];
            assert next[..|next| - 1] == shapes;
            assert Replay(selectorClass, base, next, paint) == Ok(paint(canvas, call.value));
            RoundsRecordedExtend(target, base, shapes, draws, raster, paint, similarity, canvas, shape.value);
            FilterFromRecords(target, showSteps, draws, raster, paint, similarity, base, paint(canvas, call.value), next);
          }
        }
      }
    }

    /**
     * The loop of run_filter_with_viewer, starting from a solid canvas of the
     * target's average colour: while fewer than max_rounds rounds have run and
     * the canvas is at least similarity_threshold similar, run a round, record
     * its shape and draw it on the canvas. The viewer call `i % show_steps`
     * raises ZeroDivisionError when show_steps is 0.
     */
    method RunFilterWithViewer(target: CU.Image, showSteps: int, draws: seq<seq<SG.Draws>>, raster: SG.Raster,
                               paint: (CU.Image, SG.DrawCall) -> CU.Image, similarity: CU.Image -> real, averageColor: Color)
      returns (r: Result<FilterRun>)
      requires target.Valid() && PaintKeepsSize(paint)
      requires |draws| >= maxRounds
      requires forall k :: 0 <= k < |draws| ==> RoundDrawsFit(target.width, target.height, draws[k])
      ensures r == FilterFrom(target, showSteps, draws, raster, paint, similarity,
                              CU.Solid(target.width, target.height, averageColor), [])
      ensures var base := CU.Solid(target.width, target.height, averageColor);
              r.Ok? ==> && |r.value.shapes| <= Max(maxRounds, 0)
                        && Replay(selectorClass, base, r.value.shapes, paint) == Ok(r.value.canvas)
                        && (|r.value.shapes| < maxRounds ==> similarity(r.value.canvas) < similarityThreshold)
      ensures var base := CU.Solid(target.width, target.height, averageColor);
              r.Ok? ==> forall k :: 0 <= k < |r.value.shapes| ==>
                          && Replay(selectorClass, base, r.value.shapes[..k], paint).Ok?
                          && similarity(Replay(selectorClass, base, r.value.shapes[..k], paint).value) >= similarityThreshold
                          && Round(target, Replay(selectorClass, base, r.value.shapes[..k], paint).value, draws[k], raster,
                                   SG.EvolveShape, paint) == Ok(r.value.shapes[k])
      ensures var base := CU.Solid(target.width, target.height, averageColor);
              maxRounds <= 0 || similarity(base) < similarityThreshold ==> r == Ok(FilterRun([], base))
      ensures var base := CU.Solid(target.width, target.height, averageColor);
              maxRounds > 0 && similarity(base) >= similarityThreshold && (showSteps == 0 || selectorClass.BaseSelectorClass?) ==> r.Err?
    {
      var base := CU.Solid(target.width, target.height, averageColor);
      var canvas := base;
      var shapes: seq<SG.ShapeTuple> := [];
      var i := 0;
      while i < maxRounds && similarity(canvas) >= similarityThreshold
        invariant 0 <= i <= Max(maxRounds, 0) && i <= |draws|
        invariant |shapes| == i
        invariant CU.SameSize(canvas, target)
        invariant FilterFrom(target, showSteps, draws, raster, paint, similarity, base, [])
               == FilterFrom(target, showSteps, draws, raster, paint, similarity, canvas, shapes)
        decreases maxRounds - i
      {
        var shape := RunRound(target, canvas, draws[i], raster, SG.EvolveShape, paint);
        if shape.Err? {
          return Err(shape.error);
        }
        var call := DrawWith(selectorClass, shape.value);
        if call.Err? {
          return Err(call.error);
        }
        shapes := shapes + [shape.value];
        canvas := paint(canvas, call.value);
        if showSteps == 0 {
          return Err(ZeroDivisionError);
        }
        i := i + 1;
      }
      r := Ok(FilterRun(shapes, canvas));
      FilterFromRecords(target, showSteps, draws, raster, paint, similarity, base, base, []);
    }
  }
}

=== FILE: square.dfy ===
/**
 * The square shape variant: a regular polygon whose side count is fixed at 4
 * and whose size is a 1-tuple. It overrides evolve and generate and delegates
 * drawing to the regular polygon.
 */
module Squares {
  import opened Outcomes
  import opened Numbers
  import opened Geometry
  import RP = RegularPolygons

  const MinSize := 1
  const MaxSize := 100
  const MinRotation := 0
  const MaxRotation := 359

  /** What every object built by the Square constructor satisfies. */
  predicate IsSquare(p: RP.RegularPolygon) {
    p.nSides == 4 && p.size.Tuple?
  }

  /** Square.__init__: stores the size and rotation and fixes n_sides at 4. */
  function NewSquare(size: seq<int>, rotation: int): (s: RP.RegularPolygon)
    ensures IsSquare(s) && s.size.items == size && s.rotation == rotation
  {
    RP.RegularPolygon(RP.Tuple(size), 4, rotation)
  }

  /** generate_random_shape, with the two randint draws as parameters. */
  function GenerateRandomShape(size: int, rotation: int): (s: RP.RegularPolygon)
    requires MinSize <= size <= MaxSize
    requires MinRotation <= rotation <= MaxRotation
    ensures IsSquare(s) && RP.InBounds(s)
    ensures s.size.items == [size] && s.rotation == rotation
  {
    NewSquare([size], rotation)
  }

  /**
   * The first two lines of evolve_shape: size[0] and the rotation plus their
   * randint draws. Indexing an empty size tuple raises IndexError.
   */
  function Perturbed(sq: RP.RegularPolygon, dSize: int, dRotation: int): (r: Result<(int, int)>)
    requires IsSquare(sq)
    requires -RP.SizeStep <= dSize <= RP.SizeStep
    requires -RP.RotationStep <= dRotation <= RP.RotationStep
    ensures r.Ok? <==> |sq.size.items| > 0
    ensures r.Err? ==> r.error == IndexError
    ensures r.Ok? ==> && Abs(r.value.0 - sq.size.items[0]) <= RP.SizeStep
                      && Abs(r.value.1 - sq.rotation) <= RP.RotationStep
  {
    if |sq.size.items| == 0 then Err(IndexError)
    else Ok((sq.size.items[0] + dSize, sq.rotation + dRotation))
  }

  /**
   * evolve_shape as written: the swapped clamp sends the size to 1 and the
   * rotation to 0 whatever the draws, so every evolved square is Square((1,), 0).
   */
  function EvolveShape(sq: RP.RegularPolygon, dSize: int, dRotation: int): (r: Result<RP.RegularPolygon>)
    requires IsSquare(sq)
    requires -RP.SizeStep <= dSize <= RP.SizeStep
    requires -RP.RotationStep <= dRotation <= RP.RotationStep
    ensures |sq.size.items| == 0 ==> r == Err(IndexError)
    ensures |sq.size.items| > 0 ==> r == Ok(NewSquare([1], 0))
  {
    var (newSize, newRotation) :- Perturbed(sq, dSize, dRotation);
    Ok(NewSquare([RP.SwappedClamp(MinSize, MaxSize, newSize)], RP.SwappedClamp(MinRotation, MaxRotation, newRotation)))
  }

  /** evolve_shape as evidently intended: the perturbed values clamped into bounds. */
  function EvolveShapeIntended(sq: RP.RegularPolygon, dSize: int, dRotation: int): (r: RP.RegularPolygon)
    requires IsSquare(sq) && |sq.size.items| > 0
    requires -RP.SizeStep <= dSize <= RP.SizeStep
    requires -RP.RotationStep <= dRotation <= RP.RotationStep
    ensures IsSquare(r) && RP.InBounds(r) && |r.size.items| == 1
    ensures RP.InBounds(sq) ==> && Abs(r.size.items[0] - sq.size.items[0]) <= RP.SizeStep
                                && Abs(r.rotation - sq.rotation) <= RP.RotationStep
    ensures RP.InBounds(sq) && |sq.size.items| == 1 && dSize == 0 && dRotation == 0 ==> r == sq
  {
    NewSquare([RP.Clamp(MinSize, MaxSize, sq.size.items[0] + dSize)],
              RP.Clamp(MinRotation, MaxRotation, sq.rotation + dRotation))
  }

  /** draw_shape delegates to the regular polygon; a square is drawn with 4 sides. */
  function DrawShape(sq: RP.RegularPolygon, position: Point, color: Color): (r: Result<RP.PolygonCall>)
    ensures r == RP.DrawArgs(sq, position, color)
    ensures IsSquare(sq) && |sq.size.items| > 0 ==>
              r.Ok? && r.value.nSides == 4 && r.value.radius == sq.size.items[0]
  {
    RP.DrawArgs(sq, position, color)
  }

  /** Every square the class produces, random or evolved, can be drawn with 4 sides. */
  lemma {:induction false} SquaresAlwaysDrawable(size: int, rotation: int, dSize: int, dRotation: int, position: Point, color: Color)
    requires MinSize <= size <= MaxSize
    requires MinRotation <= rotation <= MaxRotation
    requires -RP.SizeStep <= dSize <= RP.SizeStep
    requires -RP.RotationStep <= dRotation <= RP.RotationStep
    ensures DrawShape(GenerateRandomShape(size, rotation), position, color).Ok?
    ensures EvolveShape(GenerateRandomShape(size, rotation), dSize, dRotation).Ok?
    ensures DrawShape(EvolveShape(GenerateRandomShape(size, rotation), dSize, dRotation).value, position, color).value.nSides == 4
  {
  }
}

=== FILE: tuple_order.dfy ===
/**
 * Python's ordering of the (score, shape) pairs the filter sorts: tuples
 * compare element by element, strings by code point with a proper prefix
 * first, lists and tuples of ints lexicographically. The sort is modelled by
 * insertion sort; since the order is total and antisymmetric, any sort (in
 * particular Python's list.sort) yields the same list.
 */
module TupleOrder {
  import opened Geometry
  import opened ShapeGenerator

  /** Lexicographic order on int sequences; a proper prefix comes first. */
  predicate LexLess(a: seq<int>, b: seq<int>)
    decreases |a|
  {
    |b| > 0 && (|a| == 0 || a[0] < b[0] || (a[0] == b[0] && LexLess(a[1..], b[1..])))
  }

  lemma {:induction false} LexLessIrreflexive(a: seq<int>)
    ensures !LexLess(a, a)
    decreases |a|
  {
    if |a| > 0 {
      LexLessIrreflexive(a[1..]);
    }
  }

  lemma {:induction false} LexLessTransitive(a: seq<int>, b: seq<int>, c: seq<int>)
    requires LexLess(a, b) && LexLess(b, c)
    ensures LexLess(a, c)
    decreases |a|
  {
    if |a| > 0 && a[0] == b[0] && b[0] == c[0] {
      LexLessTransitive(a[1..], b[1..], c[1..]);
    }
  }

  lemma {:induction false} LexLessTotal(a: seq<int>, b: seq<int>)
    requires a != b
    ensures LexLess(a, b) || LexLess(b, a)
    decreases |a|
  {
    if |a| > 0 && |b| > 0 && a[0] == b[0] {
      assert a == [a[0]] + a[1..] && b == [b[0]] + b[1..];
      LexLessTotal(a[1..], b[1..]);
    }
  }

  /** The code points of a string. */
  function Codes(s: string): (c: seq<int>)
    ensures |c| == |s| && forall i :: 0 <= i < |s| ==> c[i] == s[i] as int
  {
    seq(|s|, i requires 0 <= i < |s| => s[i] as int)
  }

  lemma CodesInjective(s: string, t: string)
    requires Codes(s) == Codes(t)
    ensures s == t
  {
    assert forall i :: 0 <= i < |s| ==> s[i] as int == t[i] as int;
  }

  function CornerInts(xy: Corners): seq<int> {
    [xy.topLeft.x, xy.topLeft.y, xy.bottomRight.x, xy.bottomRight.y]
  }

  function ColorInts(c: Color): seq<int> { [c.r, c.g, c.b] }

  lemma CornerIntsInjective(a: Corners, b: Corners)
    requires CornerInts(a) == CornerInts(b)
    ensures a == b
  {
    assert CornerInts(a)[0] == CornerInts(b)[0] && CornerInts(a)[1] == CornerInts(b)[1];
    assert CornerInts(a)[2] == CornerInts(b)[2] && CornerInts(a)[3] == CornerInts(b)[3];
  }

  lemma ColorIntsInjective(a: Color, b: Color)
    requires ColorInts(a) == ColorInts(b)
    ensures a == b
  {
    assert ColorInts(a)[0] == ColorInts(b)[0] && ColorInts(a)[1] == ColorInts(b)[1] && ColorInts(a)[2] == ColorInts(b)[2];
  }

  /**
   * `<` on shape namedtuples: the name first, then the xy list (two 2-tuples,
   * so the four coordinates in order), then the colour tuple.
   */
  predicate ShapeLess(s: ShapeTuple, t: ShapeTuple) {
    || LexLess(Codes(s.name), Codes(t.name))
    || (s.name == t.name && LexLess(CornerInts(s.xy), CornerInts(t.xy)))
    || (s.name == t.name && s.xy == t.xy && LexLess(ColorInts(s.color), ColorInts(t.color)))
  }

  /** One entry of the list _rank_shapes sorts: the difference score and the shape. */
  datatype Scored = Scored(score: int, shape: ShapeTuple)

  /** `<` on (score, shape) tuples. */
  predicate PairLess(p: Scored, q: Scored) {
    p.score < q.score || (p.score == q.score && ShapeLess(p.shape, q.shape))
  }

  predicate PairLe(p: Scored, q: Scored) { p == q || PairLess(p, q) }

  lemma PairLessIrreflexive(p: Scored)
    ensures !PairLess(p, p)
  {
    LexLessIrreflexive(Codes(p.shape.name));
    LexLessIrreflexive(CornerInts(p.shape.xy));
    LexLessIrreflexive(ColorInts(p.shape.color));
  }

  lemma ShapeLessTransitive(s: ShapeTuple, t: ShapeTuple, u: ShapeTuple)
    requires ShapeLess(s, t) && ShapeLess(t, u)
    ensures ShapeLess(s, u)
  {
    var ns, nt, nu := Codes(s.name), Codes(t.name), Codes(u.name);
    if LexLess(ns, nt) && LexLess(nt, nu) {
      LexLessTransitive(ns, nt, nu);
    } else if s.name == t.name && t.name == u.name {
      var cs, ct, cu := CornerInts(s.xy), CornerInts(t.xy), CornerInts(u.xy);
      if LexLess(cs, ct) && LexLess(ct, cu) {
        LexLessTransitive(cs, ct, cu);
      } else if s.xy == t.xy && t.xy == u.xy {
        LexLessTransitive(ColorInts(s.color), ColorInts(t.color), ColorInts(u.color));
      }
    }
  }

  lemma PairLessTransitive(p: Scored, q: Scored, r: Scored)
    requires PairLess(p, q) && PairLess(q, r)
    ensures PairLess(p, r)
  {
    if p.score == q.score && q.score == r.score {
      ShapeLessTransitive(p.shape, q.shape, r.shape);
    }
  }

  lemma PairLeTransitive(p: Scored, q: Scored, r: Scored)
    requires PairLe(p, q) && PairLe(q, r)
    ensures PairLe(p, r)
  {
    if p != q && q != r {
      PairLessTransitive(p, q, r);
    }
  }

  lemma ShapeLessTotal(s: ShapeTuple, t: ShapeTuple)
    requires s != t
    ensures ShapeLess(s, t) || ShapeLess(t, s)
  {
    if s.name != t.name {
      if Codes(s.name) == Codes(t.name) {
        CodesInjective(s.name, t.name);
      }
      LexLessTotal(Codes(s.name), Codes(t.name));
    } else if s.xy != t.xy {
      if CornerInts(s.xy) == CornerInts(t.xy) {
        CornerIntsInjective(s.xy, t.xy);
      }
      LexLessTotal(CornerInts(s.xy), CornerInts(t.xy));
    } else {
      if ColorInts(s.color) == ColorInts(t.color) {
        ColorIntsInjective(s.color, t.color);
      }
      LexLessTotal(ColorInts(s.color), ColorInts(t.color));
    }
  }

  /** Python compares any two distinct pairs one way or the other. */
  lemma PairLessTotal(p: Scored, q: Scored)
    requires p != q
    ensures PairLess(p, q) || PairLess(q, p)
  {
    if p.score == q.score {
      ShapeLessTotal(p.shape, q.shape);
    }
  }

  lemma PairLeAntisymmetric(p: Scored, q: Scored)
    requires PairLe(p, q) && PairLe(q, p)
    ensures p == q
  {
    if p != q {
      PairLessTransitive(p, q, p);
      PairLessIrreflexive(p);
    }
  }

  predicate Sorted(s: seq<Scored>) {
    forall i, j :: 0 <= i < j < |s| ==> PairLe(s[i], s[j])
  }

  /** Inserts x before the first entry it is not greater than. */
  function Insert(x: Scored, s: seq<Scored>): (r: seq<Scored>)
    ensures multiset(r) == multiset(s) + multiset{x}
    ensures |r| == |s| + 1
  {
    if s == [] then [x]
    else if PairLe(x, s[0]) then [x] + s
    else
      assert s == [s[0]] + s[1..];
      [s[0]] + Insert(x, s[1..])
  }

  /** The sort of the (score, shape) list, by insertion: ascending by Python's tuple order. */
  function Sort(s: seq<Scored>): (r: seq<Scored>)
    ensures multiset(r) == multiset(s)
    ensures |r| == |s|
  {
    if s == [] then []
    else
      assert s == s[..|s| - 1] + [s[|s| - 1]];
      Insert(s[|s| - 1], Sort(s[..|s| - 1]))
  }

  /** Every entry of Insert(x, s) is x or an entry of s. */
  lemma InsertSource(x: Scored, s: seq<Scored>, k: nat)
    requires k < |Insert(x, s)|
    ensures Insert(x, s)[k] == x || Insert(x, s)[k] in s
  {
    var r := Insert(x, s);
    assert r[k] in multiset(r);
  }

  lemma {:induction false} InsertSorted(x: Scored, s: seq<Scored>)
    requires Sorted(s)
    ensures Sorted(Insert(x, s))
    decreases |s|
  {
    if s == [] {
    } else if PairLe(x, s[0]) {
      forall j | 0 < j < |s| ensures PairLe(x, s[j]) {
        PairLeTransitive(x, s[0], s[j]);
      }
      assert Sorted([x] + s);
    } else {
      PairLessTotal(x, s[0]);
      var rest := Insert(x, s[1..]);
      InsertSorted(x, s[1..]);
      forall k | 0 <= k < |rest| ensures PairLe(s[0], rest[k]) {
        InsertSource(x, s[1..], k);
        if rest[k] != x {
          var j :| 0 <= j < |s[1..]| && s[1..][j] == rest[k];
          assert s[j + 1] == rest[k];
        }
      }
      assert Insert(x, s) == [s[0]] + rest;
      assert Sorted([s[0]] + rest);
    }
  }

  /** The result of Sort is sorted. */
  lemma {:induction false} SortSorted(s: seq<Scored>)
    ensures Sorted(Sort(s))
    decreases |s|
  {
    if s != [] {
      SortSorted(s[..|s| - 1]);
      InsertSorted(s[|s| - 1], Sort(s[..|s| - 1]));
    }
  }

  /** The head of a sorted list is not greater than any of its entries. */
  lemma SortedHeadLe(a: seq<Scored>, x: Scored)
    requires Sorted(a) && x in multiset(a)
    ensures PairLe(a[0], x)
  {
    var j :| 0 <= j < |a| && a[j] == x;
    if j > 0 {
      assert PairLe(a[0], a[j]);
    }
  }

  lemma SortedTail(a: seq<Scored>)
    requires Sorted(a) && |a| > 0
    ensures Sorted(a[1..])
  {
    forall i, j | 0 <= i < j < |a| - 1 ensures PairLe(a[1..][i], a[1..][j]) {
      assert PairLe(a[i + 1], a[j + 1]);
    }
  }

  lemma SameTails(a: seq<Scored>, b: seq<Scored>)
    requires |a| > 0 && |b| > 0 && a[0] == b[0] && multiset(a) == multiset(b)
    ensures multiset(a[1..]) == multiset(b[1..])
  {
    assert a == [a[0]] + a[1..] && b == [b[0]] + b[1..];
    assert multiset(a[1..]) == multiset(a) - multiset{a[0]};
  }

  /** Two sorted lists with the same entries are equal: their heads are both the least entry. */
  lemma {:induction false} SortedUnique(a: seq<Scored>, b: seq<Scored>)
    requires Sorted(a) && Sorted(b)
    requires multiset(a) == multiset(b)
    ensures a == b
    decreases |a|
  {
    assert |a| == |multiset(a)| == |multiset(b)| == |b|;
    if |a| > 0 {
      SortedHeadLe(b, a[0]);
      SortedHeadLe(a, b[0]);
      PairLeAntisymmetric(a[0], b[0]);
      SameTails(a, b);
      SortedTail(a);
      SortedTail(b);
      SortedUnique(a[1..], b[1..]);
      assert a == [a[0]] + a[1..];
    }
  }

  /** Every sort agrees with Sort: a sorted permutation of the list is Sort of it. */
  lemma SortIsTheSortedPermutation(s: seq<Scored>, t: seq<Scored>)
    requires Sorted(t) && multiset(t) == multiset(s)
    ensures t == Sort(s)
  {
    SortSorted(s);
    SortedUnique(t, Sort(s));
  }

  /** Every entry of the sorted list is an entry of the original list. */
  lemma SortSource(s: seq<Scored>, i: nat) returns (k: nat)
    requires i < |Sort(s)|
    ensures k < |s| && s[k] == Sort(s)[i]
  {
    var r := Sort(s);
    assert r[i] in multiset(s);
    k :| 0 <= k < |s| && s[k] == r[i];
  }

  /** The list comprehension [shape for _, shape in pairs]. */
  function Shapes(pairs: seq<Scored>): (r: seq<ShapeTuple>)
    ensures |r| == |pairs| && forall i :: 0 <= i < |pairs| ==> r[i] == pairs[i].shape
  {
    seq(|pairs|, i requires 0 <= i < |pairs| => pairs[i].shape)
  }

  /** Shapes of a concatenation. */
  lemma ShapesOfConcat(a: seq<Scored>, b: seq<Scored>)
    ensures Shapes(a + b) == Shapes(a) + Shapes(b)
  {
  }

  /** Reordering the pairs only reorders their shapes. */
  lemma {:induction false} ShapesOfPermutation(a: seq<Scored>, b: seq<Scored>)
    requires multiset(a) == multiset(b)
    ensures multiset(Shapes(a)) == multiset(Shapes(b))
    decreases |a|
  {
    if a == [] {
      assert |b| == |multiset(b)| == 0;
    } else {
      var x := a[0];
      assert x in multiset(b);
      var j :| 0 <= j < |b| && b[j] == x;
      var left, right := b[..j], b[j + 1..];
      assert b == left + [x] + right;
      assert a == [x] + a[1..];
      assert multiset(a[1..]) == multiset(left + right) by {
        assert multiset(a[1..]) == multiset(a) - multiset{x};
        assert multiset(left + right) == multiset(b) - multiset{x};
      }
      ShapesOfPermutation(a[1..], left + right);
      ShapesOfConcat([x], a[1..]);
      ShapesOfConcat(left, right);
      ShapesOfConcat(left + [x], right);
      ShapesOfConcat(left, [x]);
    }
  }

  /** Sorting only reorders the shapes. */
  lemma ShapesOfSort(s: seq<Scored>)
    ensures multiset(Shapes(Sort(s))) == multiset(Shapes(s))
  {
    ShapesOfPermutation(Sort(s), s);
  }
}
